=== FILE: README.md ===
# archiveconv in Dafny

A model of the Focalboard archive converter. It reads a version-1 Focalboard
archive: a JSON-lines text whose first line is an `ArchiveHeader` and whose
other lines are `ArchiveLine` envelopes holding blocks. It then does one of
two things:

- writes a version-2 archive: a zip with `version.json` and, per board,
  `<board>/board.jsonl` plus the board's image files;
- with the image-info option, reports every image block together with the
  board and card it belongs to.

The model covers convert.go, util.go, archive.go and errors.go.

- `Converter.Ingest` models the block-line loop. It checks the header
  version. In template mode it leaves out template blocks, and it drops
  every block whose RootID was left out before. It stamps each kept block:
  the creator becomes the last modifier, the update time becomes the clock,
  and in template mode a board becomes a board template. It files each kept
  block under its board ID. A board's bucket starts with ten nil slots.
  The loop stops at the first malformed line, with the value of the line
  counter at that line (see below).
- `Util` models the block lookups:
  - `getBlockByID`, the first match in slot order;
  - `getCard`, the walk up the parent chain;
  - `isInContentOrder`;
  - `removeOrphans`, which clears a content block whose card does not list
    it in `contentOrder`.
- `Archive` models the writer as a plan: the zip entries created, in order,
  and the error that ended the writing. The plan has `version.json` with
  version 2 first, then board after board. Each board gets its board.jsonl
  (every non-nil block, in slot order), then one copy per image whose file
  exists. An image block without a string `fileId` stops everything with
  `ErrInvalidImageBlock`.
- `Errors` models the three typed errors and their `Error()` texts. It proves
  that the text determines the error. It also lists every other way a run
  can end early.
- `ConvertLemmas` gives a declarative reference for the result of the ingest
  loop and proves that `Ingest` computes exactly it. It also proves
  end-to-end facts about the archive that gets written.
- `Scenarios` proves the outcome for a few fixed inputs.

Modelling choices:

- The archive text arrives already split the way `bufio.Reader.ReadBytes('\n')`
  splits it and already decoded (`ArchiveText`, `LineValue`). JSON decoding
  is not modelled.
- Go map iteration order is an `order` parameter that must enumerate the
  keys. The same order is used for every loop over the bucket map.
- The clock is a parameter `now`, used both for every block's update time
  and for the date in version.json.
- Whether an image file can be opened is a parameter
  `assetExists(boardID, filename)`.
- The fatal exits of `isInContentOrder` become error values
  (`InvalidContentOrder`, `InvalidContentOrderString`).
- A `getCard` walk that never ends in Go (a parent chain that cycles with no
  card on it) becomes `ParentCycle`. `Util.GetCardSound` proves that such a
  chain has an existing non-card ancestor at every step.

How the Go loop reads the block lines:

- The line counter `lineNum` starts at 1 on the first line after the header
  (convert.go:42) and advances at the bottom of the loop (convert.go:101).
  A blank line and a kept block line reach that increment. A block line that
  is left out does not: its `continue` (convert.go:62, convert.go:68) jumps
  past it. So an error names the physical line only while no block has been
  left out; `Converter.NumberAt` gives the counter's value at each line.
- A block is dropped when its RootID is in the exclusion set, not when its
  parent is. The ID of every dropped block joins the set, so the whole
  subtree of an excluded board goes, provided the blocks arrive after their
  root.
- Stamping happens while reading, before orphans are removed.
- `ModifiedBy` is set to `CreatedBy`.

## Model

| member | source | states |
|---|---|---|
| Decimal.IntToString | errors.go:28 | The `%d` rendering of an integer is a numeral without leading zeros (zero is `0`, never `-0`) that starts with `-` exactly when the integer is negative |
| Decimal.NumeralUnique | errors.go:28 | Any numeral without leading zeros is the `%d` rendering of the integer it parses to, so each integer has exactly one such rendering |
| Decimal.IntRoundTrip | errors.go:28 | Parsing the `%d` rendering of any integer gives that integer back |
| Decimal.IntToStringInjective | errors.go:47 | Two integers with the same `%d` rendering are equal |
| Errors.Message | errors.go:9-48 | Each typed error's `Error()` text: the fixed text `invalid image block`, or a fixed prefix naming the error followed by its fields, integers in `%d` form and the line type as given |
| Errors.VersionMessageInjective | errors.go:27-29 | The unsupported-version text determines both the version found and the version wanted |
| Errors.LineTypeMessageInjective | errors.go:46-48 | The unsupported-line-type text determines both the line number and the line type |
| Errors.MessageHead | errors.go:8-48 | The three error texts differ in a fixed position: the first character separates `invalid image block` from the two others, the 21st separates version from line type |
| Errors.MessageInjective | errors.go:8-48 | Any two typed errors with the same `Error()` text are the same error |
| Blocks.Present | archive.go:73-80 | The blocks of a bucket with nil slots skipped are exactly the blocks it holds |
| Blocks.Images | archive.go:83-87 | The image blocks of a list are exactly its members whose type is `image` |
| Blocks.PresentConcat | archive.go:73-80 | Skipping nil slots distributes over concatenation, so it keeps slot order |
| Util.IndexOfID | util.go:41-48 | The slot found holds a block with the ID and no earlier slot does; no slot is found only when no slot holds the ID |
| Util.GetBlockByID | util.go:41-48 | The result has the ID asked for and is in the bucket; nothing is returned exactly when no non-nil slot has that ID |
| Util.GetBlockByIDFirstMatch | util.go:41-48 | When several slots hold the ID, the first of them is returned |
| Util.WalkUp | util.go:28-38 | A card found by the walk is a card block of the bucket |
| Util.GetCard | util.go:19-39 | A board has no card, a card is its own card, and any card found is a card of the bucket |
| Util.GetCardSound | util.go:19-39 | For any other block, the card found is the first card on its ancestor chain; no card means the chain broke before any card; a cycle means every ancestor exists and none is a card |
| Util.GetCardComplete | util.go:19-39 | Conversely, a chain that breaks before any card gives no card, and the first card on the chain is the one returned |
| Util.PeriodicAncestor | util.go:29-38 | Once an ancestor recurs, the chain repeats with that period |
| Util.CycleNeverEnds | util.go:29-38 | A chain that recurs without meeting a card never meets a card or a missing parent |
| Util.WalkUpSound | util.go:28-38 | The walk from the k-th ancestor ends at the first card after k, or at the first missing parent after k, or cycles only when the Go loop never returns |
| Util.ScanContentOrder | util.go:65-75 | The scan says "listed" exactly when the ID occurs before any non-string entry, and fails exactly when a non-string entry comes before the ID |
| Util.IsInContentOrder | util.go:50-76 | No card, no block or no `contentOrder` means not listed; a `contentOrder` that is not a list is fatal; otherwise the result of the scan |
| Util.RemoveOrphansFrom | util.go:80-89 | The pass from slot i leaves earlier slots alone and either keeps each later slot or clears it; it fails only with a content-order or cycle error |
| Util.RemoveOrphansFromSound | util.go:80-89 | Each block from slot i on gets a verdict at its turn, and its slot is cleared exactly when, against the bucket as the pass has left it by then, the block is not a board, card or view and has a card that does not list it |
| Util.RemoveOrphans | util.go:80-89 | Same length; boards, cards, views and nil slots are kept; every other block is kept or cleared according to its verdict at its turn |
| Util.RemoveOrphansIn | util.go:78-91 | The pass over the boards in map order succeeds exactly when every board's pass does, gives each board its own result, and otherwise fails with the error of one of them |
| Util.RemoveOrphansAll | util.go:78-91 | Whatever the map order, the result holds the pass of every board and fails only with one board's error |
| Util.GetBoardAndCard | util.go:5-17 | A board is its own board with no card; a card is its own card under its root; any other block gets the first block carrying its RootID (the `getBlockByID` lookup) as board, and the card `getCard` finds |
| UtilLemmas.WalkUpThinned | util.go:28-38 | In a bucket with unique IDs, clearing slots can only turn a walk's result into "no card" |
| UtilLemmas.GetCardThinned | util.go:19-39 | In a bucket with unique IDs, clearing slots changes a block's card into nothing or not at all |
| UtilLemmas.KeptAgain | util.go:80-89 | With unique IDs, every block the pass keeps is still kept when judged against the final bucket |
| UtilLemmas.SecondPassFrom | util.go:80-89 | With unique IDs, a second pass over a cleaned bucket clears nothing from any slot on |
| UtilLemmas.RemoveOrphansIdempotent | util.go:78-91 | With unique IDs, removing orphans twice is the same as removing them once |
| Archive.IsTemplate | archive.go:158-165 | A block is a template exactly when its `isTemplate` field holds boolean true |
| Archive.ExtractImageFilename | archive.go:126-137 | The file name is the string under `fileId`; a missing key or a non-string value is `ErrInvalidImageBlock` |
| Archive.BoardLines | archive.go:72-80 | board.jsonl holds one block-tagged line per non-nil slot, the k-th holding the k-th block of the bucket |
| Archive.ImagesConcat | archive.go:83-87 | Selecting image blocks distributes over concatenation |
| Archive.CopyOneEffect | archive.go:83-96 | One slot of the copy loop: an image without a file name fails and drops later copies; any other slot keeps the later plan and adds one copy in front exactly when it is an image whose file exists |
| Archive.CopyImages | archive.go:82-97 | The copy loop fails exactly when some image block has no file name, always with `ErrInvalidImageBlock`, and every entry it makes copies an existing file named by an image of the bucket |
| Archive.CopyImagesComplete | archive.go:139-156 | When no image block is invalid, every image whose file exists is copied |
| Archive.CopyImagesConcat | archive.go:82-97 | Copies follow slot order, and an invalid image stops all later copies |
| Archive.WriteBoard | archive.go:65-98 | board.jsonl with the bucket's lines comes first, then exactly the copies the copy loop makes, each of an image of the board; when no image block is invalid every image whose file exists is copied; the board fails exactly when one of its image blocks is invalid |
| Archive.WriteBoards | archive.go:38-42 | The board loop fails exactly when some board has an invalid image, and every board.jsonl it writes holds its own board's bucket |
| Archive.WriteBoardsSound | archive.go:38-42 | Every copied file of the board loop is an existing asset named by an image block of its own board, and the board.jsonl entries are those of the boards in loop order, one each, up to the failing board or all of them |
| Archive.WriteBoardShape | archive.go:65-98 | One board's write holds exactly one board.jsonl entry, its own, and copies only images of that board |
| Archive.BoardFilesConcat | archive.go:38-42 | The board.jsonl entries of two plans written one after the other are those of the first followed by those of the second |
| Archive.WriteBoardsStops | archive.go:38-42 | A failed board loop made no entry for any board after the first failing one |
| Archive.WriteBoardsComplete | archive.go:38-42 | A board loop without failure wrote the board.jsonl of every board and the copy of every image whose file exists |
| Archive.CreateArchive | archive.go:22-63 | version.json with version 2 and the current date comes first, then entries of the map's boards only; each board.jsonl holds its board; the board.jsonl entries are the boards' own, one per board in map order, up to the failing board; every other file is a copy of an existing asset named by an image block of the board whose directory it is in; the archive fails exactly when some board holds an invalid image |
| Archive.CreateArchiveStops | archive.go:38-42 | A failed archive holds nothing of the boards after the first failing one in map order |
| Archive.CreateArchiveComplete | archive.go:22-44 | A successful archive holds the board.jsonl of every board and, for every board, the copy of every image whose file exists |
| Archive.CreateArchiveAsWritten | archive.go:22-44 | The code as written always reports success once the zip closes, and its plan writes exactly the same entries as `CreateArchive` |
| Archive.CloseMasksBoardError | archive.go:30-41 | Whenever some board holds an invalid image, the as-written archive reports no error where `CreateArchive` reports `ErrInvalidImageBlock` |
| Converter.CheckVersion | convert.go:139-148 | The header passes exactly when it decodes and carries version 1; an undecodable header and any other version give their own errors |
| Converter.InitialSlots | convert.go:86-88 | A new bucket has ten nil slots |
| Converter.KeyOf | convert.go:80-85 | A board is filed under its own ID, every other block under its RootID |
| Converter.Stamp | convert.go:71-78 | A stamped block keeps its identity, type, title and board, gets its creator as last modifier and the clock as update time; in template mode a board becomes a version-2 template and no other field changes |
| Converter.AcceptBlock | convert.go:58-89 | Template and excluded-root blocks only add their ID to the exclusions; any other block is stamped and appended to its board's bucket (ten nil slots first for a new board) and no other bucket changes |
| Converter.LineError | convert.go:48-56 | A malformed line gives the error kind of its defect, carrying its line number |
| Converter.IngestLine | convert.go:44-92 | One line passes exactly when it is blank or a decodable block line; a passing line adds exactly its own exclusions; a blank line changes nothing |
| Converter.NumberAtBounds | convert.go:42-101 | The counter after `i` lines has advanced by at most `i`, and by exactly `i` exactly when none of those lines was a block line left out |
| Converter.NumberAtShift | convert.go:42-101 | The counter's value and the exclusion set after `i` lines are those after the first line followed by `i - 1` more, started from the first line's counter and exclusions |
| Converter.IngestLines | convert.go:42-102 | The loop passes exactly when every line is well formed, and otherwise stops with the error of the first malformed line, numbered by the counter that skips left-out block lines; the state only grows and every bucket stays well filed |
| Converter.Ingest | convert.go:26-102 | A missing header line and a bad version end the run with their errors; otherwise the run passes exactly when every later line, the text after the last newline included, is well formed, a failure is the error of the first malformed line with the counter's value there (from 1, not advanced by left-out block lines), and every filed block sits under its own board |
| Converter.ReportedFilename | convert.go:121 | The reported file name is the `fileId` string, or empty when there is none, the error being discarded |
| Converter.ClassifyImage | convert.go:118-127 | An image is live exactly when its board exists, its card is found and the card lists it, and the live report names that board and card; classification fails exactly when the parent walk cycles, with `ParentCycle` of the image, or the board exists, the card is found and its content order is malformed, with the content-order error of that card; a block whose orphan verdict is settled is always classified |
| Converter.ClassifyImages | convert.go:115-128 | One report per image in bucket order, each the image's classification; the loop fails exactly when one image's classification fails |
| Converter.ClassifyImagesMembers | convert.go:115-128 | The reports are exactly the classifications of the images |
| Converter.ClassifyBoard | convert.go:115-128 | A board's report holds exactly the classifications of its images, unless one of them fails |
| Converter.ShowImageInfoIn | convert.go:113-130 | The boards visited report exactly the reports of their images, unless one of them fails |
| Converter.ShowImageInfo | convert.go:113-130 | In any map order, the report goes through exactly when every image of every board can be classified, and then holds exactly those classifications |
| Converter.Convert | convert.go:26-112 | Read errors and orphan-pass errors end the run; when both passes succeed the outcome is the image report of the cleaned buckets (or its error) with the image-info option, and otherwise the archive written from the cleaned buckets, starting with the version-2 version.json |
| ConvertLemmas.ExcludedStep | convert.go:60-69 | A block is left out exactly when it is a template in template mode or its root was left out before it |
| ConvertLemmas.FiledKeysStep | convert.go:80-88 | The boards with a bucket grow by the board of each block that is not left out, and by nothing else |
| ConvertLemmas.AcceptStep | convert.go:58-89 | The loop body takes the reference state after n blocks to the reference state after n + 1 |
| ConvertLemmas.IngestFrom | convert.go:42-102 | The loop from any point of the stream ends in the reference state of the whole stream |
| ConvertLemmas.IngestIsReference | convert.go:26-102 | A successful ingest yields exactly the reference state: the exclusions are the IDs left out, and each board's bucket is ten nil slots then its stamped blocks in stream order |
| ConvertLemmas.ExcludedForward | convert.go:42-102 | Whether a block is left out depends only on the blocks before it |
| ConvertLemmas.NothingExcluded | convert.go:60-69 | Without template mode no block is left out |
| ConvertLemmas.FiledMembers | convert.go:80-89 | The blocks under a board are exactly the stamped blocks of that board that were not left out |
| ConvertLemmas.FiledOnce | convert.go:80-89 | Every block that is not left out is filed under its own board and under no other |
| ConvertLemmas.NumberingWithoutTemplateMode | convert.go:42-101 | Without template mode nothing is left out, so the counter at a line is its physical line number |
| ConvertLemmas.IngestWithoutTemplateMode | convert.go:58-89 | Without template mode the exclusions stay empty and every block of the archive is filed, stamped, under its board |
| ConvertLemmas.TemplateExcluded | convert.go:60-69 | In template mode a template block and every later block rooted at it are left out and their IDs excluded |
| ConvertLemmas.RemoveOrphansKeepsFiling | util.go:78-91 | Removing orphans keeps every remaining block filed under its own board, with its stamp |
| ConvertLemmas.PlannedLinesFiled | archive.go:65-80 | Every line of a planned board.jsonl is a block line of that board, carrying the stamp |
| ConvertLemmas.ArchivedBlocksFiled | convert.go:104-111 | In an archive written by a conversion, every board.jsonl line is a block of that board whose last modifier is its creator and whose update time is the conversion's clock |
| ConvertLemmas.KeptImagesReported | convert.go:104-128 | With unique IDs, after the orphan pass every remaining image can be classified, and one reported as orphan has no board or no card |
| Scenarios.OrphanRemoved | util.go:78-91 | A card listing only `b1`, with children `b1` and `b2`: the pass clears `b2` and keeps the rest |
| Scenarios.TemplateChainExcluded | convert.go:58-69 | In template mode a template board, its card and the card's content are all left out, and nothing is filed |
| Scenarios.UnknownTypeAfterBlank | convert.go:42-101 | An unknown line type after one blank line is reported on line 2 |
| Scenarios.ExcludedLineNotCounted | convert.go:58-101 | In template mode, an unknown line type right after a left-out template board is reported on line 1, not line 2 |
| Scenarios.VersionGate | convert.go:34-36 | A version-2 archive is refused with the unsupported-version error (got 2, want 1) |
| Scenarios.MissingAssetTolerated | archive.go:139-146 | An image whose file cannot be opened is still listed in board.jsonl, gets no copy, and the board succeeds |
| Scenarios.ImageErrorLostOnClose | archive.go:30-41 | A board with an image block without `fileId`: `CreateArchive` fails with `ErrInvalidImageBlock`, the code as written reports no error |

## Left out

- Block attributes `schema`, `createAt`, `deleteAt` and `workspaceId` are not represented in `Block`. The converter carries them unchanged from the input line to board.jsonl, so board.jsonl is stated only for the attributes the model keeps. `model.Block` itself is not part of this model.
- main.go (flag parsing, reading the input file, logging setup) is not part of this model.
- JSON decoding and encoding: the archive text arrives already decoded as `ArchiveText`/`LineValue`, and board.jsonl lines are kept as `ArchiveLine` values, not bytes. Marshalling cannot fail on these types.
- `bytes.TrimSpace` and the byte-level split into lines: `Blank` stands for a line that is empty after trimming.
- Read errors other than end of input cannot occur on an in-memory reader, so the "error reading archive line" path is not modelled.
- Zip and file-system I/O: creating the output file, `zw.Create`, `io.Copy` and `zw.Close` are taken to succeed. Whether an image file can be opened is the parameter `assetExists`. The data directory and the output file name only matter to I/O.
- Converter.Convert: the archive outcome carries `CreateArchive`'s error, not the result of the deferred `zw.Close()` that the Go code returns (see Findings).
- The clock is read per block in Go; the model uses one value `now` for every block and for version.json.
- Go map iteration order is unspecified and may differ between loops; the model uses one `order` for every loop. The orphan pass gives the same result in any order when it succeeds (`Util.RemoveOrphansAll`). Only which failing board is reported can differ.
- Template stamping writes into a nil `Fields` map when a board line has no fields, which panics in Go; the model always has a map.
- JSON numbers: `JNumber(int)` stands for any JSON number. The converter never reads a number's value inside a block, so non-integer numbers (Go's `float64` in a block's fields) are not represented. The header's `version` is a Go `int`: a header whose version does not decode as one is `HeaderUndecodable`.
- Log output (`LogDebug`, `LogError`) and the printed image report's formatting are left out; the report is a list of `ImageReport` values.
- `getCard` on a parent chain that cycles without a card never returns in Go; the model returns `Cycle` and the run ends with `ParentCycle`.
- Converter.ShowImageInfo: the report is stated as a set of classifications (membership), not as a sequence in map order.

## Findings

| source | as written | input that shows it | evidently intended | confidence | as-written member | corrected member |
|---|---|---|---|---|---|---|
| archive.go:30-41 | The deferred closure assigns `errResult = zw.Close()` after `return err`, replacing a board's error with the result of closing the zip | One board whose bucket holds an image block with no `fileId`: `writeBoard` returns `ErrInvalidImageBlock`, the zip closes without error, and `CreateArchive` returns nil | `CreateArchive` returns the board's error (closing error only when there was none) | high, not executed | Archive.CreateArchiveAsWritten | Archive.CreateArchive |

=== FILE: archive.dfy ===
/**
 * The writer of archive.go as a plan: the entries `CreateArchive` creates in
 * the destination zip, in creation order, and the error that stops it. Zip
 * encoding, file handles and JSON text are not represented; a block line is
 * its `ArchiveLine` envelope, an image copy is the pair (board, file name).
 */
module Archive {
  import opened Wrappers
  import opened Blocks
  import opened Errors

  /** The archive version written into version.json. */
  const ArchiveDestinationVersion: int := 2

  const VersionFileName: string := "version.json"
  const BoardFileName: string := "board.jsonl"

  /** `isTemplate`: the block's `isTemplate` field holds boolean true; an absent
      key, `false`, or a value of any other JSON type does not count. */
  function IsTemplate(b: Block): (r: bool)
    ensures r <==> IsTemplateKey in b.fields && b.fields[IsTemplateKey] == JBool(true)
  {
    if IsTemplateKey in b.fields then
      match b.fields[IsTemplateKey]
      case JBool(val) => val
      case _ => false
    else false
  }

  /** `extractImageFilename`: the string under `fileId`; an absent key or a
      non-string value is `ErrInvalidImageBlock`. */
  function ExtractImageFilename(b: Block): (r: Result<string, ArchiveError>)
    ensures r.Success? <==> FileIdKey in b.fields && b.fields[FileIdKey].JString?
    ensures r.Success? ==> b.fields[FileIdKey] == JString(r.value)
    ensures r.Failure? ==> r.error == InvalidImageBlock
  {
    if FileIdKey !in b.fields then Failure(InvalidImageBlock)
    else match b.fields[FileIdKey]
      case JString(name) => Success(name)
      case _ => Failure(InvalidImageBlock)
  }

  /** What an entry of the destination zip holds. */
  datatype Content =
    | VersionFile(header: ArchiveHeader)                  // version.json
    | BoardFile(boardID: string, lines: seq<ArchiveLine>)  // <board>/board.jsonl, one line per element
    | AssetFile(boardID: string, filename: string)        // a copy of <dataDir>/<board>/<filename>

  datatype Entry = Entry(name: string, content: Content)

  /** The entries created, in order, and the error that ended the writing, if any. */
  datatype Plan = Plan(entries: seq<Entry>, error: Option<ConvertError>)

  /** The board an entry other than version.json belongs to. */
  function BoardOf(e: Entry): string
    requires !e.content.VersionFile?
  {
    e.content.boardID
  }

  /** The entry `writeArchiveVersion` creates. */
  function VersionEntry(now: int): Entry {
    Entry(VersionFileName, VersionFile(ArchiveHeader(ArchiveDestinationVersion, now)))
  }

  /** The entry a copied image of a board gets. */
  function AssetEntry(boardID: string, filename: string): Entry {
    Entry(boardID + "/" + filename, AssetFile(boardID, filename))
  }

  /** The first loop of `writeBoard`: one `writeArchiveBlockLine` envelope per
      non-nil slot, nil slots skipped. The lines are exactly the bucket's
      blocks, in bucket order, each tagged "block". */
  function BoardLines(bucket: Bucket): (r: seq<ArchiveLine>)
    ensures |r| == |Present(bucket)|
    ensures forall k :: 0 <= k < |r| ==> r[k] == ArchiveLine(BlockLineType, Present(bucket)[k])
  {
    if |bucket| == 0 then []
    else match bucket[0]
      case None => BoardLines(bucket[1..])
      case Some(b) => [ArchiveLine(BlockLineType, b)] + BoardLines(bucket[1..])
  }

  /** The entry holding a board's block lines. */
  function BoardEntry(boardID: string, bucket: Bucket): Entry {
    Entry(boardID + "/" + BoardFileName, BoardFile(boardID, BoardLines(bucket)))
  }

  /** The image blocks of a bucket, nil slots skipped, in bucket order. */
  function ImagesIn(bucket: Bucket): seq<Block> {
    Images(Present(bucket))
  }

  /** Every image block of the bucket names its file. */
  predicate ValidImages(bucket: Bucket) {
    forall b :: b in ImagesIn(bucket) ==> ExtractImageFilename(b).Success?
  }

  /** `e` is the copy of an existing asset named by an image block of the bucket. */
  predicate IsCopyOf(boardID: string, bucket: Bucket, assetExists: (string, string) -> bool, e: Entry) {
    && e.content.AssetFile?
    && e == AssetEntry(boardID, e.content.filename)
    && assetExists(boardID, e.content.filename)
    && exists b :: b in ImagesIn(bucket) && ExtractImageFilename(b) == Success(e.content.filename)
  }

  lemma ImagesInCons(bucket: Bucket)
    requires |bucket| > 0
    ensures ImagesIn(bucket) ==
      (if bucket[0].Some? && bucket[0].value.blockType == ImageType then [bucket[0].value] else []) + ImagesIn(bucket[1..])
  {
    PresentConcat(bucket[..1], bucket[1..]);
    assert bucket == bucket[..1] + bucket[1..];
    ImagesConcat(Present(bucket[..1]), Present(bucket[1..]));
  }

  lemma {:induction false} ImagesConcat(a: seq<Block>, b: seq<Block>)
    ensures Images(a + b) == Images(a) + Images(b)
  {
    if |a| == 0 {
      assert a + b == b;
    } else {
      assert (a + b)[1..] == a[1..] + b;
      ImagesConcat(a[1..], b);
    }
  }

  /** The second loop of `writeBoard` on one slot, ahead of the plan `rest`
      for the later slots: a nil or non-image slot adds nothing; an image
      without a file name fails with `ErrInvalidImageBlock` and drops `rest`;
      an image whose `<dataDir>/<board>/<file>` cannot be opened is skipped
      without an error; otherwise the copy entry comes first. */
  function CopyOne(boardID: string, slot: Option<Block>, assetExists: (string, string) -> bool, rest: Plan): Plan {
    match slot
    case None => rest
    case Some(b) =>
      if b.blockType != ImageType then rest
      else match ExtractImageFilename(b)
        case Failure(e) => Plan([], Some(ArchiveFailure(e)))
        case Success(filename) =>
          if assetExists(boardID, filename)
          then Plan([AssetEntry(boardID, filename)] + rest.entries, rest.error)
          else rest
  }

  /** One slot of the copy loop: an image without a file name drops the later
      copies and fails; any other slot keeps the later plan, error included,
      and puts at most one entry in front of it, a copy, exactly when the slot
      is an image with a file name whose asset exists. */
  lemma CopyOneEffect(boardID: string, slot: Option<Block>, assetExists: (string, string) -> bool, rest: Plan)
    ensures var r := CopyOne(boardID, slot, assetExists, rest);
      && (slot.Some? && slot.value.blockType == ImageType && ExtractImageFilename(slot.value).Failure? ==>
            r == Plan([], Some(ArchiveFailure(InvalidImageBlock))))
      && (!(slot.Some? && slot.value.blockType == ImageType && ExtractImageFilename(slot.value).Failure?) ==>
            && r.error == rest.error
            && |rest.entries| <= |r.entries| <= |rest.entries| + 1
            && r.entries[|r.entries| - |rest.entries|..] == rest.entries)
      && (|r.entries| == |rest.entries| + 1 <==>
            slot.Some? && slot.value.blockType == ImageType && ExtractImageFilename(slot.value).Success?
            && assetExists(boardID, ExtractImageFilename(slot.value).value))
      && (|r.entries| == |rest.entries| + 1 ==> r.entries[0] == AssetEntry(boardID, ExtractImageFilename(slot.value).value))
  {
  }

  /** Running plan `p` and then, unless it failed, plan `q`. */
  function Then(p: Plan, q: Plan): Plan {
    if p.error.Some? then p else Plan(p.entries + q.entries, q.error)
  }

  lemma CopyOneThen(boardID: string, slot: Option<Block>, assetExists: (string, string) -> bool, p: Plan, q: Plan)
    ensures CopyOne(boardID, slot, assetExists, Then(p, q)) == Then(CopyOne(boardID, slot, assetExists, p), q)
  {
    if slot.Some? && slot.value.blockType == ImageType && ExtractImageFilename(slot.value).Success?
      && assetExists(boardID, ExtractImageFilename(slot.value).value) && p.error.None? {
      assert [AssetEntry(boardID, ExtractImageFilename(slot.value).value)] + (p.entries + q.entries)
        == [AssetEntry(boardID, ExtractImageFilename(slot.value).value)] + p.entries + q.entries;
    }
  }

  /** The second loop of `writeBoard` over the whole bucket. */
  function CopyImages(boardID: string, bucket: Bucket, assetExists: (string, string) -> bool): (r: Plan)
    ensures r.error.Some? ==> r.error == Some(ArchiveFailure(InvalidImageBlock))
    ensures r.error.None? <==> ValidImages(bucket)
    ensures forall e :: e in r.entries ==> IsCopyOf(boardID, bucket, assetExists, e)
  {
    if |bucket| == 0 then Plan([], None)
    else
      ImagesInCons(bucket);
      CopyOne(boardID, bucket[0], assetExists, CopyImages(boardID, bucket[1..], assetExists))
  }

  /** When no image block is invalid, every image whose asset exists is copied. */
  lemma {:induction false} CopyImagesComplete(boardID: string, bucket: Bucket, assetExists: (string, string) -> bool)
    requires ValidImages(bucket)
    ensures forall b :: b in ImagesIn(bucket) && assetExists(boardID, ExtractImageFilename(b).value) ==>
      AssetEntry(boardID, ExtractImageFilename(b).value) in CopyImages(boardID, bucket, assetExists).entries
  {
    if |bucket| > 0 {
      ImagesInCons(bucket);
      CopyImagesComplete(boardID, bucket[1..], assetExists);
    }
  }

  /** Image copies keep bucket order, and an invalid image stops all later copies. */
  lemma {:induction false} CopyImagesConcat(boardID: string, a: Bucket, b: Bucket, assetExists: (string, string) -> bool)
    ensures CopyImages(boardID, a + b, assetExists)
      == Then(CopyImages(boardID, a, assetExists), CopyImages(boardID, b, assetExists))
  {
    if |a| == 0 {
      assert a + b == b;
    } else {
      var ab := a + b;
      assert ab[1..] == a[1..] + b;
      assert ab[0] == a[0];
      var tailA := CopyImages(boardID, a[1..], assetExists);
      var plansB := CopyImages(boardID, b, assetExists);
      CopyImagesConcat(boardID, a[1..], b, assetExists);
      assert CopyImages(boardID, ab, assetExists) == CopyOne(boardID, a[0], assetExists, Then(tailA, plansB));
      CopyOneThen(boardID, a[0], assetExists, tailA, plansB);
      assert CopyImages(boardID, a, assetExists) == CopyOne(boardID, a[0], assetExists, tailA);
    }
  }

  /** Every image block of the bucket whose asset exists has its copy among `entries`. */
  predicate CopiesAll(boardID: string, bucket: Bucket, assetExists: (string, string) -> bool, entries: seq<Entry>) {
    forall b :: b in ImagesIn(bucket) && ExtractImageFilename(b).Success? && assetExists(boardID, ExtractImageFilename(b).value) ==>
      AssetEntry(boardID, ExtractImageFilename(b).value) in entries
  }

  /** Copies found in part of a plan are found in the whole plan. */
  lemma CopiesAllConcat(boardID: string, bucket: Bucket, assetExists: (string, string) -> bool, a: seq<Entry>, b: seq<Entry>)
    requires CopiesAll(boardID, bucket, assetExists, a) || CopiesAll(boardID, bucket, assetExists, b)
    ensures CopiesAll(boardID, bucket, assetExists, a + b)
  {
  }

  /** board.jsonl in front of the copies: the entries belong to the board,
      the only board file holds its bucket, and the rest are copies. */
  lemma BoardThenCopies(boardID: string, bucket: Bucket, assetExists: (string, string) -> bool)
    ensures var es := [BoardEntry(boardID, bucket)] + CopyImages(boardID, bucket, assetExists).entries;
      && es[1..] == CopyImages(boardID, bucket, assetExists).entries
      && (forall e :: e in es[1..] ==> IsCopyOf(boardID, bucket, assetExists, e))
      && FromBoards(es, [boardID])
      && BoardFilesOf(es, map[boardID := bucket])
  {
    var copies := CopyImages(boardID, bucket, assetExists).entries;
    var es := [BoardEntry(boardID, bucket)] + copies;
    assert es[1..] == copies;
    assert forall e :: e in es ==> e == BoardEntry(boardID, bucket) || e in copies;
  }

  /** With board.jsonl in front of the copies, every image whose asset exists
      is still copied. */
  lemma BoardCopiesAll(boardID: string, bucket: Bucket, assetExists: (string, string) -> bool)
    ensures ValidImages(bucket) ==>
      CopiesAll(boardID, bucket, assetExists, [BoardEntry(boardID, bucket)] + CopyImages(boardID, bucket, assetExists).entries)
  {
    if ValidImages(bucket) {
      CopyImagesComplete(boardID, bucket, assetExists);
      CopiesAllConcat(boardID, bucket, assetExists, [BoardEntry(boardID, bucket)], CopyImages(boardID, bucket, assetExists).entries);
    }
  }

  /** `writeBoard`: board.jsonl first, holding every block of the bucket, then
      the image copies; an invalid image block ends the board with
      `ErrInvalidImageBlock` after the entries created so far. When no image
      block is invalid, every image whose asset exists is copied. */
  function WriteBoard(boardID: string, bucket: Bucket, assetExists: (string, string) -> bool): (r: Plan)
    ensures |r.entries| >= 1 && r.entries[0] == BoardEntry(boardID, bucket)
    ensures r.entries[1..] == CopyImages(boardID, bucket, assetExists).entries
    ensures forall e :: e in r.entries[1..] ==> IsCopyOf(boardID, bucket, assetExists, e)
    ensures ValidImages(bucket) ==> CopiesAll(boardID, bucket, assetExists, r.entries)
    ensures FromBoards(r.entries, [boardID])
    ensures BoardFilesOf(r.entries, map[boardID := bucket])
    ensures r.error.None? <==> ValidImages(bucket)
    ensures r.error.Some? ==> r.error == Some(ArchiveFailure(InvalidImageBlock))
  {
    var copies := CopyImages(boardID, bucket, assetExists);
    var r := Then(Plan([BoardEntry(boardID, bucket)], None), copies);
    assert r.entries == [BoardEntry(boardID, bucket)] + copies.entries;
    BoardThenCopies(boardID, bucket, assetExists);
    BoardCopiesAll(boardID, bucket, assetExists);
    r
  }

  /** Every entry belongs to one of the boards `ids`. */
  predicate FromBoards(entries: seq<Entry>, ids: seq<string>) {
    forall e :: e in entries ==> !e.content.VersionFile? && BoardOf(e) in ids
  }

  /** Every board.jsonl entry holds the lines of its own board's bucket. */
  predicate BoardFilesOf(entries: seq<Entry>, buckets: Buckets) {
    forall e :: e in entries && e.content.BoardFile? ==>
      e.content.boardID in buckets && e == BoardEntry(e.content.boardID, buckets[e.content.boardID])
  }

  /** Every copy entry copies an existing asset named by an image block of its
      own board. */
  predicate AssetFilesOf(entries: seq<Entry>, buckets: Buckets, assetExists: (string, string) -> bool) {
    forall e :: e in entries && e.content.AssetFile? ==>
      e.content.boardID in buckets && IsCopyOf(e.content.boardID, buckets[e.content.boardID], assetExists, e)
  }

  lemma AssetFilesConcat(a: seq<Entry>, b: seq<Entry>, buckets: Buckets, assetExists: (string, string) -> bool)
    requires AssetFilesOf(a, buckets, assetExists) && AssetFilesOf(b, buckets, assetExists)
    ensures AssetFilesOf(a + b, buckets, assetExists)
  {
  }

  /** The board.jsonl entries among `entries`, in order. */
  function BoardFiles(entries: seq<Entry>): seq<Entry> {
    if |entries| == 0 then []
    else (if entries[0].content.BoardFile? then [entries[0]] else []) + BoardFiles(entries[1..])
  }

  lemma {:induction false} BoardFilesConcat(a: seq<Entry>, b: seq<Entry>)
    ensures BoardFiles(a + b) == BoardFiles(a) + BoardFiles(b)
  {
    if |a| == 0 {
      assert a + b == b;
    } else {
      assert (a + b)[0] == a[0];
      assert (a + b)[1..] == a[1..] + b;
      BoardFilesConcat(a[1..], b);
    }
  }

  /** Entries that are all copies hold no board.jsonl. */
  lemma {:induction false} NoBoardFiles(entries: seq<Entry>)
    requires forall e :: e in entries ==> e.content.AssetFile?
    ensures BoardFiles(entries) == []
  {
    if |entries| > 0 {
      assert entries[0] in entries;
      NoBoardFiles(entries[1..]);
    }
  }

  /** One board.jsonl per board of `order`, in order. */
  function BoardEntries(buckets: Buckets, order: seq<string>): seq<Entry>
    requires forall id :: id in order ==> id in buckets
  {
    if |order| == 0 then []
    else [BoardEntry(order[0], buckets[order[0]])] + BoardEntries(buckets, order[1..])
  }

  /** A board's plan holds exactly one board.jsonl, its own, and copies of its
      own images. */
  lemma WriteBoardShape(buckets: Buckets, id: string, assetExists: (string, string) -> bool)
    requires id in buckets
    ensures BoardFiles(WriteBoard(id, buckets[id], assetExists).entries) == [BoardEntry(id, buckets[id])]
    ensures AssetFilesOf(WriteBoard(id, buckets[id], assetExists).entries, buckets, assetExists)
  {
    var w := WriteBoard(id, buckets[id], assetExists).entries;
    var copies := w[1..];
    assert w == [w[0]] + copies;
    NoBoardFiles(copies);
    BoardFilesConcat([w[0]], copies);
    assert BoardFiles([w[0]]) == [w[0]];
  }

  /** The board loop's step keeps every copy sound and the board.jsonl entries
      those of a prefix of `order`, all of it when nothing fails. */
  lemma ThenBoards(buckets: Buckets, order: seq<string>, assetExists: (string, string) -> bool, rest: Plan)
    requires |order| > 0 && forall id :: id in order ==> id in buckets
    requires AssetFilesOf(rest.entries, buckets, assetExists)
    requires BoardFiles(rest.entries) <= BoardEntries(buckets, order[1..])
    requires rest.error.None? ==> BoardFiles(rest.entries) == BoardEntries(buckets, order[1..])
    ensures var r := Then(WriteBoard(order[0], buckets[order[0]], assetExists), rest);
      && AssetFilesOf(r.entries, buckets, assetExists)
      && BoardFiles(r.entries) <= BoardEntries(buckets, order)
      && (r.error.None? ==> BoardFiles(r.entries) == BoardEntries(buckets, order))
  {
    var first := WriteBoard(order[0], buckets[order[0]], assetExists);
    WriteBoardShape(buckets, order[0], assetExists);
    assert BoardEntries(buckets, order) == [BoardEntry(order[0], buckets[order[0]])] + BoardEntries(buckets, order[1..]);
    if first.error.None? {
      BoardFilesConcat(first.entries, rest.entries);
      AssetFilesConcat(first.entries, rest.entries, buckets, assetExists);
    }
  }

  /** `order[k]` is the first board in `order` holding an invalid image block. */
  predicate FirstFailing(buckets: Buckets, order: seq<string>, k: int)
    requires forall id :: id in order ==> id in buckets
  {
    && 0 <= k < |order|
    && !ValidImages(buckets[order[k]])
    && forall j :: 0 <= j < k ==> ValidImages(buckets[order[j]])
  }

  /** The board loop of `CreateArchive` over the board IDs in `order`: each
      board's entries in turn, stopping after the first board that fails. */
  function WriteBoards(buckets: Buckets, order: seq<string>, assetExists: (string, string) -> bool): (r: Plan)
    requires forall id :: id in order ==> id in buckets
    ensures r.error.None? <==> forall id :: id in order ==> ValidImages(buckets[id])
    ensures r.error.Some? ==> r.error == Some(ArchiveFailure(InvalidImageBlock))
    ensures FromBoards(r.entries, order)
    ensures BoardFilesOf(r.entries, buckets)
  {
    if |order| == 0 then Plan([], None)
    else
      assert forall id :: id in order <==> id == order[0] || id in order[1..];
      Then(WriteBoard(order[0], buckets[order[0]], assetExists), WriteBoards(buckets, order[1..], assetExists))
  }

  /** The board loop writes nothing it should not: every copy is of an image
      of its own board, and the board.jsonl entries are those of the boards of
      `order`, one each and in order, up to the board that failed, or all of
      them. */
  lemma {:induction false} WriteBoardsSound(buckets: Buckets, order: seq<string>, assetExists: (string, string) -> bool)
    requires forall id :: id in order ==> id in buckets
    ensures AssetFilesOf(WriteBoards(buckets, order, assetExists).entries, buckets, assetExists)
    ensures BoardFiles(WriteBoards(buckets, order, assetExists).entries) <= BoardEntries(buckets, order)
    ensures WriteBoards(buckets, order, assetExists).error.None? ==>
      BoardFiles(WriteBoards(buckets, order, assetExists).entries) == BoardEntries(buckets, order)
  {
    if |order| > 0 {
      var rest := WriteBoards(buckets, order[1..], assetExists);
      WriteBoardsSound(buckets, order[1..], assetExists);
      ThenBoards(buckets, order, assetExists, rest);
      assert WriteBoards(buckets, order, assetExists) == Then(WriteBoard(order[0], buckets[order[0]], assetExists), rest);
    }
  }

  lemma FromBoardsConcat(a: seq<Entry>, b: seq<Entry>, id: string, ids: seq<string>)
    requires FromBoards(a, [id]) && FromBoards(b, ids)
    ensures FromBoards(a + b, [id] + ids)
  {
  }

  lemma FirstFailingLater(buckets: Buckets, order: seq<string>, k: int)
    requires forall id :: id in order ==> id in buckets
    requires |order| > 0 && ValidImages(buckets[order[0]])
    requires FirstFailing(buckets, order[1..], k)
    ensures FirstFailing(buckets, order, k + 1)
  {
    assert forall j :: 1 <= j <= k + 1 ==> order[j] == order[1..][j - 1];
  }

  lemma PrefixCons(order: seq<string>, n: int)
    requires 0 < n <= |order|
    ensures order[..n] == [order[0]] + order[1..][..n - 1]
  {
  }

  /** A failed board loop stopped at the first failing board: no entry comes
      from a board after it. */
  lemma {:induction false} WriteBoardsStops(buckets: Buckets, order: seq<string>, assetExists: (string, string) -> bool)
    requires forall id :: id in order ==> id in buckets
    requires WriteBoards(buckets, order, assetExists).error.Some?
    ensures exists k :: FirstFailing(buckets, order, k) && FromBoards(WriteBoards(buckets, order, assetExists).entries, order[..k + 1])
  {
    var all := WriteBoards(buckets, order, assetExists);
    var rest := WriteBoards(buckets, order[1..], assetExists);
    WriteBoardsCons(buckets, order, assetExists);
    if !ValidImages(buckets[order[0]]) {
      StopsHere(buckets, order, all.entries);
    } else {
      var firstEntries :| FromBoards(firstEntries, [order[0]]) && all.entries == firstEntries + rest.entries;
      WriteBoardsStops(buckets, order[1..], assetExists);
      var k :| FirstFailing(buckets, order[1..], k) && FromBoards(rest.entries, order[1..][..k + 1]);
      StopsLater(buckets, order, firstEntries, rest.entries, k);
    }
  }

  /** What the first board contributes to a failed board loop: everything,
      when it fails itself; otherwise entries of its own, followed by the rest
      of the loop, which then fails. */
  lemma WriteBoardsCons(buckets: Buckets, order: seq<string>, assetExists: (string, string) -> bool)
    requires forall id :: id in order ==> id in buckets
    requires WriteBoards(buckets, order, assetExists).error.Some?
    ensures |order| > 0
    ensures !ValidImages(buckets[order[0]]) ==> FromBoards(WriteBoards(buckets, order, assetExists).entries, [order[0]])
    ensures ValidImages(buckets[order[0]]) ==>
      && WriteBoards(buckets, order[1..], assetExists).error.Some?
      && exists firstEntries :: FromBoards(firstEntries, [order[0]])
           && WriteBoards(buckets, order, assetExists).entries == firstEntries + WriteBoards(buckets, order[1..], assetExists).entries
  {
    var first := WriteBoard(order[0], buckets[order[0]], assetExists);
    assert WriteBoards(buckets, order, assetExists) == Then(first, WriteBoards(buckets, order[1..], assetExists));
  }

  /** The case of `WriteBoardsStops` where the first board fails. */
  lemma StopsHere(buckets: Buckets, order: seq<string>, first: seq<Entry>)
    requires forall id :: id in order ==> id in buckets
    requires |order| > 0 && !ValidImages(buckets[order[0]])
    requires FromBoards(first, [order[0]])
    ensures FirstFailing(buckets, order, 0) && FromBoards(first, order[..0 + 1])
  {
    assert order[..1] == [order[0]];
  }

  /** The step of `WriteBoardsStops` past a board that does not fail. */
  lemma StopsLater(buckets: Buckets, order: seq<string>, first: seq<Entry>, rest: seq<Entry>, k: int)
    requires forall id :: id in order ==> id in buckets
    requires |order| > 0 && ValidImages(buckets[order[0]])
    requires FromBoards(first, [order[0]])
    requires FirstFailing(buckets, order[1..], k) && FromBoards(rest, order[1..][..k + 1])
    ensures FirstFailing(buckets, order, k + 1) && FromBoards(first + rest, order[..k + 2])
  {
    FirstFailingLater(buckets, order, k);
    PrefixCons(order, k + 2);
    FromBoardsConcat(first, rest, order[0], order[1..][..k + 1]);
  }

  /** Once no board fails, every board's board.jsonl is in the plan, and so
      is the copy of every image whose asset exists. */
  lemma {:induction false} WriteBoardsComplete(buckets: Buckets, order: seq<string>, assetExists: (string, string) -> bool)
    requires forall id :: id in order ==> id in buckets
    requires WriteBoards(buckets, order, assetExists).error.None?
    ensures forall id :: id in order ==> BoardEntry(id, buckets[id]) in WriteBoards(buckets, order, assetExists).entries
    ensures forall id :: id in order ==> CopiesAll(id, buckets[id], assetExists, WriteBoards(buckets, order, assetExists).entries)
  {
    if |order| > 0 {
      var first := WriteBoard(order[0], buckets[order[0]], assetExists);
      var rest := WriteBoards(buckets, order[1..], assetExists);
      assert WriteBoards(buckets, order, assetExists).entries == first.entries + rest.entries;
      WriteBoardsComplete(buckets, order[1..], assetExists);
      assert forall id :: id in order <==> id == order[0] || id in order[1..];
      forall id | id in order
        ensures CopiesAll(id, buckets[id], assetExists, first.entries + rest.entries)
      {
        CopiesAllConcat(id, buckets[id], assetExists, first.entries, rest.entries);
      }
    }
  }

  /** `CreateArchive`: version.json, with the destination version whatever the
      source version was, is the first entry and the only one of its kind;
      the boards follow in map order, and the first board that fails stops
      all later ones. */
  function CreateArchive(buckets: Buckets, order: seq<string>, now: int, assetExists: (string, string) -> bool): (r: Plan)
    requires IsEnumeration(order, buckets.Keys)
    ensures |r.entries| >= 1 && r.entries[0] == Entry(VersionFileName, VersionFile(ArchiveHeader(2, now)))
    ensures FromBoards(r.entries[1..], order)
    ensures BoardFilesOf(r.entries, buckets)
    ensures r.error.None? <==> forall id :: id in buckets ==> ValidImages(buckets[id])
    ensures r.error.Some? ==> r.error == Some(ArchiveFailure(InvalidImageBlock))
    ensures AssetFilesOf(r.entries, buckets, assetExists)
    ensures BoardFiles(r.entries) <= BoardEntries(buckets, order)
    ensures r.error.None? ==> BoardFiles(r.entries) == BoardEntries(buckets, order)
  {
    var boards := WriteBoards(buckets, order, assetExists);
    var r := Then(Plan([VersionEntry(now)], None), boards);
    assert r.entries[1..] == boards.entries;
    WriteBoardsSound(buckets, order, assetExists);
    BoardFilesConcat([VersionEntry(now)], boards.entries);
    assert BoardFiles([VersionEntry(now)]) == [];
    AssetFilesConcat([VersionEntry(now)], boards.entries, buckets, assetExists);
    r
  }

  /** A failed archive stops at the first board, in map order, holding an
      invalid image block: no entry of a later board is created. */
  lemma CreateArchiveStops(buckets: Buckets, order: seq<string>, now: int, assetExists: (string, string) -> bool)
    requires IsEnumeration(order, buckets.Keys)
    requires CreateArchive(buckets, order, now, assetExists).error.Some?
    ensures exists k :: FirstFailing(buckets, order, k) && FromBoards(CreateArchive(buckets, order, now, assetExists).entries[1..], order[..k + 1])
  {
    WriteBoardsStops(buckets, order, assetExists);
    assert CreateArchive(buckets, order, now, assetExists).entries[1..] == WriteBoards(buckets, order, assetExists).entries;
  }

  /** A successful archive holds the board.jsonl of every board and the copy
      of every image whose asset exists. */
  lemma CreateArchiveComplete(buckets: Buckets, order: seq<string>, now: int, assetExists: (string, string) -> bool)
    requires IsEnumeration(order, buckets.Keys)
    requires CreateArchive(buckets, order, now, assetExists).error.None?
    ensures forall id :: id in buckets ==> BoardEntry(id, buckets[id]) in CreateArchive(buckets, order, now, assetExists).entries
    ensures forall id :: id in buckets ==> CopiesAll(id, buckets[id], assetExists, CreateArchive(buckets, order, now, assetExists).entries)
  {
    var boards := WriteBoards(buckets, order, assetExists);
    WriteBoardsComplete(buckets, order, assetExists);
    assert CreateArchive(buckets, order, now, assetExists).entries == [VersionEntry(now)] + boards.entries;
    assert forall id :: id in buckets ==> exists k :: 0 <= k < |order| && order[k] == id;
    forall id | id in buckets
      ensures CopiesAll(id, buckets[id], assetExists, [VersionEntry(now)] + boards.entries)
    {
      CopiesAllConcat(id, buckets[id], assetExists, [VersionEntry(now)], boards.entries);
    }
  }

  /** `CreateArchive` as the Go code behaves: the deferred `zw.Close()`
      assigns the named result after the body has returned, so whatever error
      a board's write returned is replaced by the result of closing the zip,
      which succeeds (a zip writer that fails to close is not modelled). The
      entries are those of `CreateArchive`: the loop still stops at the
      failing board. */
  function CreateArchiveAsWritten(buckets: Buckets, order: seq<string>, now: int, assetExists: (string, string) -> bool): (r: Plan)
    requires IsEnumeration(order, buckets.Keys)
    ensures r.error.None?
    ensures |r.entries| >= 1 && r.entries[0] == Entry(VersionFileName, VersionFile(ArchiveHeader(2, now)))
    ensures FromBoards(r.entries[1..], order)
    ensures BoardFilesOf(r.entries, buckets)
    ensures r.entries == CreateArchive(buckets, order, now, assetExists).entries
  {
    var written := Then(Plan([VersionEntry(now)], None), WriteBoards(buckets, order, assetExists));
    assert written.entries[1..] == WriteBoards(buckets, order, assetExists).entries;
    Plan(written.entries, None)
  }

  /** The as-written archive reports success for an archive that stopped at
      an invalid image block: the same entries are written, but the error
      that `CreateArchive` returns is lost. */
  lemma CloseMasksBoardError(buckets: Buckets, order: seq<string>, now: int, assetExists: (string, string) -> bool)
    requires IsEnumeration(order, buckets.Keys)
    requires exists id :: id in buckets && !ValidImages(buckets[id])
    ensures CreateArchive(buckets, order, now, assetExists).error == Some(ArchiveFailure(InvalidImageBlock))
    ensures CreateArchiveAsWritten(buckets, order, now, assetExists).error.None?
    ensures CreateArchiveAsWritten(buckets, order, now, assetExists).entries == CreateArchive(buckets, order, now, assetExists).entries
  {
  }
}

=== FILE: blocks.dfy ===
/**
 * The data the converter works on: Focalboard blocks with their open JSON
 * `Fields`, the per-board buckets the conversion builds, and the two archive
 * record shapes (header and line envelope).
 */
module Blocks {
  import opened Wrappers

  /** A decoded JSON value, as `encoding/json` stores one in an `interface{}`.
      `JNumber` stands for any JSON number: the converter never reads a
      number's value, and only writes the integer template version. */
  datatype JsonValue =
    | JNull
    | JBool(b: bool)
    | JNumber(n: int)
    | JString(s: string)
    | JArray(items: seq<JsonValue>)
    | JObject(members: map<string, JsonValue>)

  /** A `model.Block`. Attributes the converter never reads or writes
      (schema, create/delete times, ...) are not represented. */
  datatype Block = Block(
    id: string,
    parentID: string,
    rootID: string,
    createdBy: string,
    modifiedBy: string,
    blockType: string,
    title: string,
    fields: map<string, JsonValue>,
    updateAt: int)

  const BoardType: string := "board"
  const CardType: string := "card"
  const ViewType: string := "view"
  const ImageType: string := "image"

  /** The `Fields` keys the converter reads or writes. */
  const IsTemplateKey: string := "isTemplate"
  const TemplateVerKey: string := "templateVer"
  const ContentOrderKey: string := "contentOrder"
  const FileIdKey: string := "fileId"

  /** The slice of block pointers kept for one board; `None` is a nil slot
      (the ten initial slots, or a block removed as an orphan). */
  type Bucket = seq<Option<Block>>

  /** Board ID to the blocks of that board. */
  type Buckets = map<string, Bucket>

  /** `order` visits every key of `keys` exactly once, as a Go `range` over a
      map does (in an order the language leaves unspecified). */
  predicate IsEnumeration(order: seq<string>, keys: set<string>) {
    && |order| == |keys|
    && (forall k :: k in keys ==> k in order)
    && (forall k :: k in order ==> k in keys)
  }

  /** True when slot `e` holds a block whose ID is `id`. */
  predicate HasID(e: Option<Block>, id: string) {
    e.Some? && e.value.id == id
  }

  /** `model.ArchiveHeader`: the first line of an archive, and version.json. */
  datatype ArchiveHeader = ArchiveHeader(version: int, date: int)

  /** The line type tag of the only archive line kind there is. */
  const BlockLineType: string := "block"

  /** `model.ArchiveLine` as the writer produces it: a type tag and a block. */
  datatype ArchiveLine = ArchiveLine(lineType: string, data: Block)

  /** The blocks of a bucket, nil slots skipped, in bucket order. */
  function Present(bucket: Bucket): (r: seq<Block>)
    ensures |r| <= |bucket|
    ensures forall b :: b in r <==> Some(b) in bucket
  {
    if |bucket| == 0 then []
    else
      var rest := Present(bucket[1..]);
      assert forall b :: Some(b) in bucket <==> bucket[0] == Some(b) || Some(b) in bucket[1..];
      match bucket[0]
      case None => rest
      case Some(b) => [b] + rest
  }

  /** The image blocks of `bs`, in order. */
  function Images(bs: seq<Block>): (r: seq<Block>)
    ensures |r| <= |bs|
    ensures forall b :: b in r <==> b in bs && b.blockType == ImageType
  {
    if |bs| == 0 then []
    else
      assert forall b :: b in bs <==> b == bs[0] || b in bs[1..];
      (if bs[0].blockType == ImageType then [bs[0]] else []) + Images(bs[1..])
  }

  /** `Present` distributes over concatenation, so it keeps bucket order. */
  lemma {:induction false} PresentConcat(a: Bucket, b: Bucket)
    ensures Present(a + b) == Present(a) + Present(b)
  {
    if |a| > 0 {
      assert (a + b)[1..] == a[1..] + b;
      PresentConcat(a[1..], b);
    } else {
      assert a + b == b;
    }
  }
}

=== FILE: convert.dfy ===
/**
 * convert.go: the version check, the block-line loop of `Convert` that
 * builds the exclusion set and the per-board buckets, the image report of
 * `showImageInfo`, and `Convert` itself tying ingest, the orphan filter and
 * the archive writer together. The archive text arrives already split into
 * lines and decoded (see `ArchiveText`).
 */
module Converter {
  import opened Wrappers
  import opened Blocks
  import opened Errors
  import opened Util
  import opened Archive

  /** The only archive version this converter reads. */
  const ArchiveSourceVersion: int := 1

  /** The options that steer the conversion; the output file name and the
      data directory only matter to I/O and are not represented. */
  datatype ConvertOptions = ConvertOptions(templateMode: bool, showImageInfo: bool)

  /** The first line, after trimming, as `json.Unmarshal` into an
      `ArchiveHeader` sees it. */
  datatype HeaderValue = HeaderUndecodable | HeaderDecoded(header: ArchiveHeader)

  /** The `data` member of a "block" line, as `json.Unmarshal` into a `Block` sees it. */
  datatype Payload = BlockPayload(block: Block) | BadPayload

  /** One line after the header, trimmed: empty, not an archive line at all,
      or an envelope with its type tag and its payload. */
  datatype LineValue = Blank | Undecodable | Envelope(lineType: string, data: Payload)

  /** The archive as the reads of `bufio.Reader.ReadBytes('\n')` deliver it:
      either the input holds no newline at all, so the header read already
      meets end of input, or there is a header line, the newline-terminated
      lines after it, and `last`, whatever follows the final newline (read
      together with end of input, `Blank` when the text ends in a newline). */
  datatype ArchiveText =
    | Unterminated
    | Text(header: HeaderValue, lines: seq<LineValue>, last: LineValue)

  /** `checkVersion`: the header must decode and carry version 1. */
  function CheckVersion(h: HeaderValue): (r: Option<ConvertError>)
    ensures r.None? <==> h.HeaderDecoded? && h.header.version == ArchiveSourceVersion
    ensures h.HeaderUndecodable? ==> r == Some(VersionNotRead)
    ensures h.HeaderDecoded? && h.header.version != 1 ==>
      r == Some(ArchiveFailure(UnsupportedArchiveVersion(h.header.version, 1)))
  {
    match h
    case HeaderUndecodable => Some(VersionNotRead)
    case HeaderDecoded(header) =>
      if header.version != ArchiveSourceVersion
      then Some(ArchiveFailure(UnsupportedArchiveVersion(header.version, ArchiveSourceVersion)))
      else None
  }

  /* ---------- the block-line loop ---------- */

  /** What the loop has built so far: the IDs of excluded blocks and the
      buckets by board ID. */
  datatype IngestState = IngestState(exclude: set<string>, buckets: Buckets)

  const EmptyState: IngestState := IngestState({}, map[])

  /** The number of nil slots a new bucket starts with. */
  const InitialSlotCount: nat := 10

  /** A new bucket, as `make([]*model.Block, 10)` creates it. */
  function InitialSlots(): (r: Bucket)
    ensures |r| == InitialSlotCount && forall i :: 0 <= i < |r| ==> r[i].None?
  {
    seq(InitialSlotCount, _ => None)
  }

  /** The board a block is filed under: a board's own ID, otherwise its RootID. */
  function KeyOf(b: Block): (k: string)
    ensures b.blockType == BoardType ==> k == b.id
    ensures b.blockType != BoardType ==> k == b.rootID
  {
    if b.blockType == BoardType then b.id else b.rootID
  }

  /** The block as it is filed: in template mode a board becomes a board
      template (`isTemplate` true, `templateVer` the destination version);
      every block gets its creator as last modifier and `now` as update time.
      Nothing else about the block changes. */
  function Stamp(opts: ConvertOptions, now: int, b: Block): (r: Block)
    ensures r.id == b.id && r.parentID == b.parentID && r.rootID == b.rootID
    ensures r.blockType == b.blockType && r.title == b.title && r.createdBy == b.createdBy
    ensures r.modifiedBy == b.createdBy && r.updateAt == now
    ensures KeyOf(r) == KeyOf(b)
    ensures opts.templateMode && b.blockType == BoardType ==>
      && IsTemplate(r)
      && TemplateVerKey in r.fields
      && r.fields[TemplateVerKey] == JNumber(ArchiveDestinationVersion)
      && r.fields.Keys == b.fields.Keys + {IsTemplateKey, TemplateVerKey}
      && forall key :: key in b.fields && key != IsTemplateKey && key != TemplateVerKey ==> r.fields[key] == b.fields[key]
    ensures !(opts.templateMode && b.blockType == BoardType) ==> r.fields == b.fields
  {
    var fields :=
      if opts.templateMode && b.blockType == BoardType
      then b.fields[IsTemplateKey := JBool(true)][TemplateVerKey := JNumber(ArchiveDestinationVersion)]
      else b.fields;
    b.(fields := fields, modifiedBy := b.createdBy, updateAt := now)
  }

  /** Every filed block sits under its own board ID, carries its creator as
      last modifier and `now` as update time. */
  predicate WellFiled(buckets: Buckets, now: int) {
    forall key, i :: key in buckets && 0 <= i < |buckets[key]| && buckets[key][i].Some? ==>
      && KeyOf(buckets[key][i].value) == key
      && buckets[key][i].value.modifiedBy == buckets[key][i].value.createdBy
      && buckets[key][i].value.updateAt == now
  }

  /** `st` grows into `r`: no exclusion is ever taken back, and every bucket
      only gains blocks at its end. */
  predicate Grows(st: IngestState, r: IngestState) {
    && st.exclude <= r.exclude
    && forall key :: key in st.buckets ==> key in r.buckets && st.buckets[key] <= r.buckets[key]
  }

  /** The part of the loop body for a decoded block: in template mode a
      template block is excluded; a block whose RootID is excluded is
      excluded too; any other block is stamped and appended to its board's
      bucket, which starts with ten nil slots when the board is new. */
  function AcceptBlock(opts: ConvertOptions, now: int, st: IngestState, b: Block): (r: IngestState)
    ensures Grows(st, r)
    ensures WellFiled(st.buckets, now) ==> WellFiled(r.buckets, now)
    ensures (opts.templateMode && IsTemplate(b)) || b.rootID in st.exclude ==>
      r == IngestState(st.exclude + {b.id}, st.buckets)
    ensures !(opts.templateMode && IsTemplate(b)) && b.rootID !in st.exclude ==>
      && r.exclude == st.exclude
      && r.buckets.Keys == st.buckets.Keys + {KeyOf(b)}
      && r.buckets[KeyOf(b)] == (if KeyOf(b) in st.buckets then st.buckets[KeyOf(b)] else InitialSlots()) + [Some(Stamp(opts, now, b))]
      && forall key :: key in st.buckets && key != KeyOf(b) ==> r.buckets[key] == st.buckets[key]
  {
    if opts.templateMode && IsTemplate(b) then st.(exclude := st.exclude + {b.id})
    else if b.rootID in st.exclude then st.(exclude := st.exclude + {b.id})
    else
      var key := KeyOf(b);
      var bucket := if key in st.buckets then st.buckets[key] else InitialSlots();
      st.(buckets := st.buckets[key := bucket + [Some(Stamp(opts, now, b))]])
  }

  /** A line the loop passes over without error: blank, or a block line
      whose payload decodes. */
  predicate WellFormed(line: LineValue) {
    line.Blank? || (line.Envelope? && line.lineType == BlockLineType && line.data.BlockPayload?)
  }

  /** The error a malformed line numbered `n` ends the loop with. */
  function LineError(line: LineValue, n: int): (e: ConvertError)
    requires !WellFormed(line)
    ensures e.LineNotParsed? || e.BlockNotParsed? || (e.ArchiveFailure? && e.cause.UnsupportedArchiveLineType?)
    ensures ErrorLine(e) == n
  {
    match line
    case Undecodable => LineNotParsed(n)
    case Envelope(tag, data) =>
      if tag == BlockLineType then BlockNotParsed(n)
      else ArchiveFailure(UnsupportedArchiveLineType(n, tag))
  }

  /** One pass of the loop body for the line numbered `n`. */
  function IngestLine(opts: ConvertOptions, now: int, st: IngestState, line: LineValue, n: int): (r: Result<IngestState, ConvertError>)
    ensures r.Success? <==> WellFormed(line)
    ensures r.Failure? ==> r.error == LineError(line, n)
    ensures r.Success? ==> r.value.exclude == ExcludeAfter(opts, st.exclude, line)
    ensures line.Blank? ==> r == Success(st)
    ensures WellFormed(line) && line.Envelope? ==> r == Success(AcceptBlock(opts, now, st, line.data.block))
  {
    match line
    case Blank => Success(st)
    case Undecodable => Failure(LineNotParsed(n))
    case Envelope(tag, data) =>
      if tag == BlockLineType then
        match data
        case BadPayload => Failure(BlockNotParsed(n))
        case BlockPayload(b) => Success(AcceptBlock(opts, now, st, b))
      else Failure(ArchiveFailure(UnsupportedArchiveLineType(n, tag)))
  }

  /** `lines[i]` is the first line that is not well formed. */
  predicate FirstMalformed(lines: seq<LineValue>, i: int) {
    && 0 <= i < |lines|
    && !WellFormed(lines[i])
    && forall j :: 0 <= j < i ==> WellFormed(lines[j])
  }

  /** A decoded block the loop leaves out, given the IDs excluded so far. */
  predicate Skipped(opts: ConvertOptions, exclude: set<string>, b: Block) {
    (opts.templateMode && IsTemplate(b)) || b.rootID in exclude
  }

  /** The excluded IDs once a well-formed line has been handled. */
  function ExcludeAfter(opts: ConvertOptions, exclude: set<string>, line: LineValue): set<string>
    requires WellFormed(line)
  {
    if line.Envelope? && Skipped(opts, exclude, line.data.block) then exclude + {line.data.block.id} else exclude
  }

  /** Whether the pass for a well-formed line reaches the increment of the
      line counter: a blank line does, while a block line that is left out
      ends its pass with a `continue` first. */
  predicate Counted(opts: ConvertOptions, exclude: set<string>, line: LineValue)
    requires WellFormed(line)
  {
    line.Blank? || !Skipped(opts, exclude, line.data.block)
  }

  /** The excluded IDs when the loop reaches `lines[i]`, starting from `exclude`. */
  function ExcludeAt(opts: ConvertOptions, exclude: set<string>, lines: seq<LineValue>, i: nat): set<string>
    requires i <= |lines| && forall j :: 0 <= j < i ==> WellFormed(lines[j])
  {
    if i == 0 then exclude
    else ExcludeAfter(opts, ExcludeAt(opts, exclude, lines, i - 1), lines[i - 1])
  }

  /** The value of the line counter when the loop reaches `lines[i]`: `n`
      plus the number of earlier lines that are blank or block lines that
      are not left out. */
  function NumberAt(opts: ConvertOptions, exclude: set<string>, lines: seq<LineValue>, n: int, i: nat): int
    requires i <= |lines| && forall j :: 0 <= j < i ==> WellFormed(lines[j])
  {
    if i == 0 then n
    else NumberAt(opts, exclude, lines, n, i - 1) + (if Counted(opts, ExcludeAt(opts, exclude, lines, i - 1), lines[i - 1]) then 1 else 0)
  }

  /** The counter after `i` lines has advanced by at most `i`, and by exactly
      `i` when none of those lines was left out. */
  lemma {:induction false} NumberAtBounds(opts: ConvertOptions, exclude: set<string>, lines: seq<LineValue>, n: int, i: nat)
    requires i <= |lines| && forall j :: 0 <= j < i ==> WellFormed(lines[j])
    ensures n <= NumberAt(opts, exclude, lines, n, i) <= n + i
    ensures NumberAt(opts, exclude, lines, n, i) == n + i <==>
      forall j :: 0 <= j < i ==> Counted(opts, ExcludeAt(opts, exclude, lines, j), lines[j])
  {
    if i > 0 {
      NumberAtBounds(opts, exclude, lines, n, i - 1);
    }
  }

  /** Handling the first line and then counting from the second is counting
      from the first. */
  lemma {:induction false} NumberAtShift(opts: ConvertOptions, exclude: set<string>, lines: seq<LineValue>, n: int, i: nat)
    requires 0 < i <= |lines| && forall j :: 0 <= j < i ==> WellFormed(lines[j])
    ensures ExcludeAt(opts, exclude, lines, i)
      == ExcludeAt(opts, ExcludeAfter(opts, exclude, lines[0]), lines[1..], i - 1)
    ensures NumberAt(opts, exclude, lines, n, i)
      == NumberAt(opts, ExcludeAfter(opts, exclude, lines[0]), lines[1..], if Counted(opts, exclude, lines[0]) then n + 1 else n, i - 1)
  {
    if i > 1 {
      NumberAtShift(opts, exclude, lines, n, i - 1);
      assert lines[i - 1] == lines[1..][i - 2];
    }
  }

  /** A malformed line found in the tail after a well-formed first line is the
      first malformed line of the whole sequence, and carries the same counter
      value counted from the start. */
  lemma FirstMalformedShift(opts: ConvertOptions, exclude: set<string>, lines: seq<LineValue>, n: int, i: int)
    requires |lines| > 0 && WellFormed(lines[0]) && FirstMalformed(lines[1..], i)
    ensures FirstMalformed(lines, i + 1) && lines[i + 1] == lines[1..][i]
    ensures NumberAt(opts, exclude, lines, n, i + 1)
      == NumberAt(opts, ExcludeAfter(opts, exclude, lines[0]), lines[1..], if Counted(opts, exclude, lines[0]) then n + 1 else n, i)
  {
    assert forall j :: 1 <= j < |lines| ==> lines[j] == lines[1..][j - 1];
    NumberAtShift(opts, exclude, lines, n, i + 1);
  }

  /** The loop over `lines`, the counter standing at `n` for the first of
      them: it runs through exactly when every line is well formed, and
      otherwise stops at the first malformed line with an error carrying the
      counter's value there. */
  function IngestLines(opts: ConvertOptions, now: int, st: IngestState, lines: seq<LineValue>, n: int): (r: Result<IngestState, ConvertError>)
    ensures r.Success? <==> forall i :: 0 <= i < |lines| ==> WellFormed(lines[i])
    ensures r.Failure? ==> exists i :: FirstMalformed(lines, i) && r.error == LineError(lines[i], NumberAt(opts, st.exclude, lines, n, i))
    ensures r.Success? ==> Grows(st, r.value)
    ensures r.Success? && WellFiled(st.buckets, now) ==> WellFiled(r.value.buckets, now)
    decreases |lines|
  {
    if |lines| == 0 then Success(st)
    else
      match IngestLine(opts, now, st, lines[0], n)
      case Failure(e) => Failure(e)
      case Success(next) =>
        var m := if Counted(opts, st.exclude, lines[0]) then n + 1 else n;
        var r := IngestLines(opts, now, next, lines[1..], m);
        assert forall i :: 1 <= i < |lines| ==> lines[i] == lines[1..][i - 1];
        assert r.Failure? ==> exists i :: FirstMalformed(lines, i) && r.error == LineError(lines[i], NumberAt(opts, st.exclude, lines, n, i)) by {
          if r.Failure? {
            var i :| FirstMalformed(lines[1..], i) && r.error == LineError(lines[1..][i], NumberAt(opts, next.exclude, lines[1..], m, i));
            FirstMalformedShift(opts, st.exclude, lines, n, i);
          }
        }
        r
  }

  /** Reading the archive: the header must end in a newline and pass the
      version check; the counter starts at 1 for the line after the header
      and advances past blank lines and kept block lines but not past block
      lines left out; the text after the final newline is handled like any
      other line before end of input ends the loop. */
  function Ingest(opts: ConvertOptions, now: int, text: ArchiveText): (r: Result<IngestState, ConvertError>)
    ensures text.Unterminated? ==> r == Failure(HeaderNotRead)
    ensures text.Text? && CheckVersion(text.header).Some? ==> r == Failure(CheckVersion(text.header).value)
    ensures r.Success? <==> (text.Text? && CheckVersion(text.header).None?
      && forall i :: 0 <= i < |text.lines| + 1 ==> WellFormed((text.lines + [text.last])[i]))
    ensures text.Text? && CheckVersion(text.header).None? && r.Failure? ==>
      exists i :: FirstMalformed(text.lines + [text.last], i)
        && r.error == LineError((text.lines + [text.last])[i], NumberAt(opts, {}, text.lines + [text.last], 1, i))
    ensures r.Success? ==> WellFiled(r.value.buckets, now)
  {
    match text
    case Unterminated => Failure(HeaderNotRead)
    case Text(header, lines, last) =>
      match CheckVersion(header)
      case Some(e) => Failure(e)
      case None => IngestLines(opts, now, EmptyState, lines + [last], 1)
  }

  /* ---------- showImageInfo ---------- */

  /** One line of the image report: an image not attached to a listed card
      of a known board, or an image with the board and card it belongs to. */
  datatype ImageReport =
    | OrphanImage(filename: string)
    | LiveImage(boardID: string, boardTitle: string, cardID: string, cardTitle: string, filename: string)

  /** The file name the report shows: the `fileId` string, or empty when the
      block has none. */
  function ReportedFilename(b: Block): (r: string)
    ensures FileIdKey in b.fields && b.fields[FileIdKey].JString? ==> r == b.fields[FileIdKey].s
    ensures !(FileIdKey in b.fields && b.fields[FileIdKey].JString?) ==> r == ""
  {
    match ExtractImageFilename(b)
    case Success(name) => name
    case Failure(_) => ""
  }

  /** The body of the `showImageInfo` loop for one image block: the board
      and card lookups, then the content-order test, which is only made when
      both were found. A card lookup that never returns and a malformed
      `contentOrder` end the run. */
  function ClassifyImage(b: Block, bucket: Bucket): (r: Result<ImageReport, ConvertError>)
    requires b.blockType == ImageType
    ensures Decides(b, bucket) ==> r.Success?
    ensures r.Failure? ==> r.error == ParentCycle(b.id) || r.error.InvalidContentOrder? || r.error.InvalidContentOrderString?
    ensures r.Failure? <==>
      || GetCard(b, bucket).Cycle?
      || (&& GetBlockByID(b.rootID, bucket).Some?
          && GetCard(b, bucket).Card?
          && IsInContentOrder(Some(GetCard(b, bucket).card), Some(b)).Failure?)
    ensures GetCard(b, bucket).Cycle? ==> r == Failure(ParentCycle(b.id))
    ensures r.Failure? && !GetCard(b, bucket).Cycle? ==>
      r == Failure(IsInContentOrder(Some(GetCard(b, bucket).card), Some(b)).error)
    ensures r.Success? ==> r.value.filename == ReportedFilename(b)
    ensures r.Success? && r.value.LiveImage? <==>
      && GetBlockByID(b.rootID, bucket).Some?
      && GetCard(b, bucket).Card?
      && IsInContentOrder(Some(GetCard(b, bucket).card), Some(b)) == Success(true)
    ensures r.Success? && r.value.LiveImage? ==>
      && r.value.boardID == b.rootID
      && r.value.boardID == GetBlockByID(b.rootID, bucket).value.id
      && r.value.boardTitle == GetBlockByID(b.rootID, bucket).value.title
      && GetCard(b, bucket).card.id == r.value.cardID && GetCard(b, bucket).card.title == r.value.cardTitle
      && GetCard(b, bucket).card.blockType == CardType
  {
    var (board, card) := GetBoardAndCard(b, bucket);
    var filename := ReportedFilename(b);
    if card.Cycle? then Failure(ParentCycle(b.id))
    else if board.None? || card.NoCard? then Success(OrphanImage(filename))
    else match IsInContentOrder(Some(card.card), Some(b))
      case Failure(e) => Failure(e)
      case Success(listed) =>
        if listed then Success(LiveImage(board.value.id, board.value.title, card.card.id, card.card.title, filename))
        else Success(OrphanImage(filename))
  }

  /** The `showImageInfo` loop over the image blocks of one bucket, in bucket
      order (the nil slots and other block types it skips are left out by
      `ImagesIn`): one report per image, until a report ends the run. */
  function ClassifyImages(images: seq<Block>, bucket: Bucket): (r: Result<seq<ImageReport>, ConvertError>)
    requires forall b :: b in images ==> b.blockType == ImageType
    ensures r.Success? <==> forall b :: b in images ==> ClassifyImage(b, bucket).Success?
    ensures r.Success? ==> (|r.value| == |images|
      && forall k :: 0 <= k < |images| ==> Success(r.value[k]) == ClassifyImage(images[k], bucket))
    ensures r.Failure? ==> exists b :: b in images && ClassifyImage(b, bucket) == Failure(r.error)
  {
    if |images| == 0 then Success([])
    else
      assert forall b :: b in images <==> b == images[0] || b in images[1..];
      match ClassifyImage(images[0], bucket)
      case Failure(e) => Failure(e)
      case Success(report) =>
        match ClassifyImages(images[1..], bucket)
        case Failure(e) => Failure(e)
        case Success(reports) => Success([report] + reports)
  }

  /** The reports of a run that ends normally are exactly the reports of its
      images. */
  lemma ClassifyImagesMembers(images: seq<Block>, bucket: Bucket)
    requires forall b :: b in images ==> b.blockType == ImageType
    requires ClassifyImages(images, bucket).Success?
    ensures forall report :: report in ClassifyImages(images, bucket).value <==>
      exists b :: b in images && ClassifyImage(b, bucket) == Success(report)
  {
    var reports := ClassifyImages(images, bucket).value;
    forall report | report in reports
      ensures exists b :: b in images && ClassifyImage(b, bucket) == Success(report)
    {
      var k :| 0 <= k < |reports| && reports[k] == report;
      assert images[k] in images;
    }
    forall b | b in images && ClassifyImage(b, bucket).Success?
      ensures ClassifyImage(b, bucket).value in reports
    {
      var k :| 0 <= k < |images| && images[k] == b;
      assert reports[k] in reports;
    }
  }

  /** The `showImageInfo` loop over one board's bucket: the report of every
      image block of the board, unless one of them ends the run. */
  function ClassifyBoard(bucket: Bucket): (r: Result<seq<ImageReport>, ConvertError>)
    ensures r.Success? <==> forall b :: b in ImagesIn(bucket) ==> ClassifyImage(b, bucket).Success?
    ensures r.Success? ==> forall report :: report in r.value <==>
      exists b :: b in ImagesIn(bucket) && ClassifyImage(b, bucket) == Success(report)
    ensures r.Failure? ==> exists b :: b in ImagesIn(bucket) && ClassifyImage(b, bucket) == Failure(r.error)
  {
    var r := ClassifyImages(ImagesIn(bucket), bucket);
    if r.Success? then
      ClassifyImagesMembers(ImagesIn(bucket), bucket);
      r
    else r
  }

  /** `showImageInfo` over the boards in `order`, board after board. */
  function ShowImageInfoIn(buckets: Buckets, order: seq<string>): (r: Result<seq<ImageReport>, ConvertError>)
    requires forall key :: key in order ==> key in buckets
    ensures r.Success? <==> forall key :: key in order ==> ClassifyBoard(buckets[key]).Success?
    ensures r.Success? ==> forall report :: report in r.value <==>
      exists key :: key in order && report in ClassifyBoard(buckets[key]).value
    ensures r.Failure? ==> exists key :: key in order && ClassifyBoard(buckets[key]) == Failure(r.error)
  {
    if |order| == 0 then Success([])
    else match ClassifyBoard(buckets[order[0]])
      case Failure(e) => Failure(e)
      case Success(reports) =>
        match ShowImageInfoIn(buckets, order[1..])
        case Failure(e) => Failure(e)
        case Success(more) =>
          assert forall key :: key in order <==> key == order[0] || key in order[1..];
          Success(reports + more)
  }

  /** `showImageInfo`: whatever order the boards are visited in, the report
      goes through exactly when every image of every board can be classified,
      and then holds the report of each such image and nothing else. */
  function ShowImageInfo(buckets: Buckets, order: seq<string>): (r: Result<seq<ImageReport>, ConvertError>)
    requires IsEnumeration(order, buckets.Keys)
    ensures r.Success? <==> forall key, b :: key in buckets && b in ImagesIn(buckets[key]) ==> ClassifyImage(b, buckets[key]).Success?
    ensures r.Success? ==> forall report :: report in r.value <==>
      exists key, b :: key in buckets && b in ImagesIn(buckets[key]) && ClassifyImage(b, buckets[key]) == Success(report)
    ensures r.Failure? ==> exists key, b :: key in buckets && b in ImagesIn(buckets[key]) && ClassifyImage(b, buckets[key]) == Failure(r.error)
  {
    ShowImageInfoIn(buckets, order)
  }

  /* ---------- Convert ---------- */

  /** How one run ends: with an error, with the image report, or with the
      plan of the destination archive (whose own `error` is the one the
      writer met, if any). */
  datatype Outcome = Failed(error: ConvertError) | ImageInfo(reports: seq<ImageReport>) | Archived(plan: Plan)

  /** `Convert`. `now` stands for the clock, `order` for the order the Go
      map of buckets is visited in (the same for every loop over it), and
      `assetExists` for whether an image file can be opened. */
  function Convert(opts: ConvertOptions, now: int, text: ArchiveText, order: seq<string>, assetExists: (string, string) -> bool): (r: Outcome)
    requires Ingest(opts, now, text).Success? ==> IsEnumeration(order, Ingest(opts, now, text).value.buckets.Keys)
    ensures Ingest(opts, now, text).Failure? ==> r == Failed(Ingest(opts, now, text).error)
    ensures Ingest(opts, now, text).Success? && RemoveOrphansAll(Ingest(opts, now, text).value.buckets, order).Failure? ==>
      r == Failed(RemoveOrphansAll(Ingest(opts, now, text).value.buckets, order).error)
    ensures r.ImageInfo? ==> opts.showImageInfo
    ensures r.Archived? ==> !opts.showImageInfo
    ensures r.Archived? ==> |r.plan.entries| >= 1 && r.plan.entries[0] == Entry(VersionFileName, VersionFile(ArchiveHeader(2, now)))
    ensures Ingest(opts, now, text).Success? && RemoveOrphansAll(Ingest(opts, now, text).value.buckets, order).Success? ==>
      var cleaned := RemoveOrphansAll(Ingest(opts, now, text).value.buckets, order).value;
      && (!opts.showImageInfo ==> r == Archived(CreateArchive(cleaned, order, now, assetExists)))
      && (opts.showImageInfo && ShowImageInfo(cleaned, order).Success? ==> r == ImageInfo(ShowImageInfo(cleaned, order).value))
      && (opts.showImageInfo && ShowImageInfo(cleaned, order).Failure? ==> r == Failed(ShowImageInfo(cleaned, order).error))
  {
    match Ingest(opts, now, text)
    case Failure(e) => Failed(e)
    case Success(st) =>
      match RemoveOrphansAll(st.buckets, order)
      case Failure(e) => Failed(e)
      case Success(cleaned) =>
        if opts.showImageInfo then
          match ShowImageInfo(cleaned, order)
          case Failure(e) => Failed(e)
          case Success(reports) => ImageInfo(reports)
        else Archived(CreateArchive(cleaned, order, now, assetExists))
  }
}

=== FILE: convert_lemmas.dfy ===
/**
 * What one conversion run computes, stated without the loop: a reference
 * definition of the exclusion set and of the buckets in terms of the block
 * stream alone, the proof that the ingest loop computes exactly that, and
 * the consequences for the archive that is written.
 */
module ConvertLemmas {
  import opened Wrappers
  import opened Blocks
  import opened Errors
  import opened Util
  import opened UtilLemmas
  import opened Archive
  import opened Converter

  /* ---------- the reference definition ---------- */

  /** The decoded blocks of the block lines, in stream order. */
  function BlocksOf(lines: seq<LineValue>): (r: seq<Block>)
    ensures |r| <= |lines|
  {
    if |lines| == 0 then []
    else (if lines[0].Envelope? && lines[0].data.BlockPayload? then [lines[0].data.block] else []) + BlocksOf(lines[1..])
  }

  /** Whether the `i`-th block of the stream `bs` is left out: in template
      mode a template block is, and so is a block whose RootID is the ID of
      an earlier block that is left out. */
  predicate Excluded(opts: ConvertOptions, bs: seq<Block>, i: nat)
    requires i < |bs|
    decreases i
  {
    || (opts.templateMode && IsTemplate(bs[i]))
    || exists j :: 0 <= j < i && bs[j].id == bs[i].rootID && Excluded(opts, bs, j)
  }

  /** The IDs of the blocks among the first `n` that are left out. */
  function ExcludedIDs(opts: ConvertOptions, bs: seq<Block>, n: nat): set<string>
    requires n <= |bs|
  {
    set j | 0 <= j < n && Excluded(opts, bs, j) :: bs[j].id
  }

  /** The board IDs the first `n` blocks are filed under. */
  function FiledKeys(opts: ConvertOptions, bs: seq<Block>, n: nat): set<string>
    requires n <= |bs|
  {
    set j | 0 <= j < n && !Excluded(opts, bs, j) :: KeyOf(bs[j])
  }

  /** The stamped blocks among the first `n` filed under `key`, in stream order. */
  function Filed(opts: ConvertOptions, now: int, bs: seq<Block>, key: string, n: nat): Bucket
    requires n <= |bs|
  {
    if n == 0 then []
    else
      Filed(opts, now, bs, key, n - 1)
      + (if !Excluded(opts, bs, n - 1) && KeyOf(bs[n - 1]) == key then [Some(Stamp(opts, now, bs[n - 1]))] else [])
  }

  /** The state after the first `n` blocks of `bs`: each board's bucket is
      ten nil slots followed by its filed blocks. */
  function Reference(opts: ConvertOptions, now: int, bs: seq<Block>, n: nat): IngestState
    requires n <= |bs|
  {
    IngestState(
      ExcludedIDs(opts, bs, n),
      map key | key in FiledKeys(opts, bs, n) :: InitialSlots() + Filed(opts, now, bs, key, n))
  }

  /* ---------- the loop computes the reference ---------- */

  lemma {:induction false} FiledEmpty(opts: ConvertOptions, now: int, bs: seq<Block>, key: string, n: nat)
    requires n <= |bs| && key !in FiledKeys(opts, bs, n)
    ensures Filed(opts, now, bs, key, n) == []
  {
    if n > 0 {
      assert key !in FiledKeys(opts, bs, n - 1);
      FiledEmpty(opts, now, bs, key, n - 1);
    }
  }

  lemma ExcludedStep(opts: ConvertOptions, bs: seq<Block>, n: nat)
    requires n < |bs|
    ensures Excluded(opts, bs, n) <==> (opts.templateMode && IsTemplate(bs[n])) || bs[n].rootID in ExcludedIDs(opts, bs, n)
  {
    assert bs[n].rootID in ExcludedIDs(opts, bs, n) <==> exists j :: 0 <= j < n && bs[j].id == bs[n].rootID && Excluded(opts, bs, j);
  }

  lemma ExcludedIDsStep(opts: ConvertOptions, bs: seq<Block>, n: nat)
    requires n < |bs|
    ensures ExcludedIDs(opts, bs, n + 1) == ExcludedIDs(opts, bs, n) + (if Excluded(opts, bs, n) then {bs[n].id} else {})
  {
    var before := ExcludedIDs(opts, bs, n);
    var after := ExcludedIDs(opts, bs, n + 1);
    forall x | x in after
      ensures x in before || (Excluded(opts, bs, n) && x == bs[n].id)
    {
      var j :| 0 <= j < n + 1 && Excluded(opts, bs, j) && bs[j].id == x;
      if j < n {
        assert x in before;
      }
    }
    forall x | x in before
      ensures x in after
    {
      var j :| 0 <= j < n && Excluded(opts, bs, j) && bs[j].id == x;
    }
    if Excluded(opts, bs, n) {
      assert bs[n].id in after;
    }
  }

  lemma FiledKeyOf(opts: ConvertOptions, bs: seq<Block>, n: nat, j: nat)
    requires j < n <= |bs| && !Excluded(opts, bs, j)
    ensures KeyOf(bs[j]) in FiledKeys(opts, bs, n)
  {
  }

  lemma FiledKeysNew(opts: ConvertOptions, bs: seq<Block>, n: nat, x: string)
    requires n < |bs| && x in FiledKeys(opts, bs, n + 1)
    ensures x in FiledKeys(opts, bs, n) || (!Excluded(opts, bs, n) && x == KeyOf(bs[n]))
  {
    var j :| 0 <= j < n + 1 && !Excluded(opts, bs, j) && KeyOf(bs[j]) == x;
    if j < n {
      FiledKeyOf(opts, bs, n, j);
    } else {
      assert j == n;
    }
  }

  lemma FiledKeysOld(opts: ConvertOptions, bs: seq<Block>, n: nat, x: string)
    requires n < |bs| && x in FiledKeys(opts, bs, n)
    ensures x in FiledKeys(opts, bs, n + 1)
  {
    var j :| 0 <= j < n && !Excluded(opts, bs, j) && KeyOf(bs[j]) == x;
  }

  lemma FiledKeysStep(opts: ConvertOptions, bs: seq<Block>, n: nat)
    requires n < |bs|
    ensures FiledKeys(opts, bs, n + 1) == FiledKeys(opts, bs, n) + (if Excluded(opts, bs, n) then {} else {KeyOf(bs[n])})
  {
    forall x | x in FiledKeys(opts, bs, n + 1)
      ensures x in FiledKeys(opts, bs, n) || (!Excluded(opts, bs, n) && x == KeyOf(bs[n]))
    {
      FiledKeysNew(opts, bs, n, x);
    }
    forall x | x in FiledKeys(opts, bs, n)
      ensures x in FiledKeys(opts, bs, n + 1)
    {
      FiledKeysOld(opts, bs, n, x);
    }
    if !Excluded(opts, bs, n) {
      assert KeyOf(bs[n]) in FiledKeys(opts, bs, n + 1);
    }
  }

  /** The map of buckets for the first `n` blocks. */
  function RefBuckets(opts: ConvertOptions, now: int, bs: seq<Block>, n: nat): Buckets
    requires n <= |bs|
  {
    Reference(opts, now, bs, n).buckets
  }

  lemma SkipStep(opts: ConvertOptions, now: int, bs: seq<Block>, n: nat)
    requires n < |bs| && Excluded(opts, bs, n)
    ensures RefBuckets(opts, now, bs, n + 1) == RefBuckets(opts, now, bs, n)
  {
    FiledKeysStep(opts, bs, n);
    var before := RefBuckets(opts, now, bs, n);
    var after := RefBuckets(opts, now, bs, n + 1);
    assert before.Keys == after.Keys;
    forall key | key in after
      ensures after[key] == before[key]
    {
      assert Filed(opts, now, bs, key, n + 1) == Filed(opts, now, bs, key, n);
    }
  }

  lemma FileStep(opts: ConvertOptions, now: int, bs: seq<Block>, n: nat)
    requires n < |bs| && !Excluded(opts, bs, n)
    ensures var before := RefBuckets(opts, now, bs, n);
      var key := KeyOf(bs[n]);
      RefBuckets(opts, now, bs, n + 1)
        == before[key := (if key in before then before[key] else InitialSlots()) + [Some(Stamp(opts, now, bs[n]))]]
  {
    FiledKeysStep(opts, bs, n);
    var before := RefBuckets(opts, now, bs, n);
    var after := RefBuckets(opts, now, bs, n + 1);
    var key := KeyOf(bs[n]);
    var x := Some(Stamp(opts, now, bs[n]));
    if key !in before {
      FiledEmpty(opts, now, bs, key, n);
    }
    var want := before[key := (if key in before then before[key] else InitialSlots()) + [x]];
    assert after.Keys == want.Keys;
    forall k | k in after
      ensures after[k] == want[k]
    {
      if k == key {
        assert Filed(opts, now, bs, k, n + 1) == Filed(opts, now, bs, k, n) + [x];
        assert InitialSlots() + Filed(opts, now, bs, k, n) + [x] == InitialSlots() + (Filed(opts, now, bs, k, n) + [x]);
      } else {
        assert Filed(opts, now, bs, k, n + 1) == Filed(opts, now, bs, k, n);
      }
    }
  }

  /** The loop body, applied to the reference state after `n` blocks and the
      next block, gives the reference state after `n + 1` blocks. */
  lemma AcceptStep(opts: ConvertOptions, now: int, bs: seq<Block>, n: nat)
    requires n < |bs|
    ensures AcceptBlock(opts, now, Reference(opts, now, bs, n), bs[n]) == Reference(opts, now, bs, n + 1)
  {
    ExcludedStep(opts, bs, n);
    ExcludedIDsStep(opts, bs, n);
    if Excluded(opts, bs, n) {
      SkipStep(opts, now, bs, n);
    } else {
      FileStep(opts, now, bs, n);
    }
  }

  /** The loop over the lines whose blocks are `all[k..]`, started in the
      reference state after `k` blocks, ends in the state after all of them. */
  lemma {:induction false} IngestFrom(opts: ConvertOptions, now: int, all: seq<Block>, k: nat, lines: seq<LineValue>, n: int)
    requires k <= |all| && all[k..] == BlocksOf(lines)
    requires forall i :: 0 <= i < |lines| ==> WellFormed(lines[i])
    ensures IngestLines(opts, now, Reference(opts, now, all, k), lines, n) == Success(Reference(opts, now, all, |all|))
    decreases |lines|
  {
    if |lines| == 0 {
      assert k == |all|;
    } else {
      assert forall i :: 0 <= i < |lines[1..]| ==> lines[1..][i] == lines[i + 1];
      if lines[0].Blank? {
        IngestFrom(opts, now, all, k, lines[1..], n + 1);
      } else {
        assert all[k] == lines[0].data.block;
        assert all[k + 1..] == all[k..][1..];
        AcceptStep(opts, now, all, k);
        var next := if Counted(opts, Reference(opts, now, all, k).exclude, lines[0]) then n + 1 else n;
        IngestFrom(opts, now, all, k + 1, lines[1..], next);
      }
    }
  }

  /** The blocks of a readable archive, header excluded, in stream order. */
  function StreamBlocks(text: ArchiveText): seq<Block>
    requires text.Text?
  {
    BlocksOf(text.lines + [text.last])
  }

  /** Ingest builds exactly the reference state of the archive's block
      stream: the exclusion set and every bucket are determined by the
      stream alone. */
  lemma IngestIsReference(opts: ConvertOptions, now: int, text: ArchiveText)
    requires Ingest(opts, now, text).Success?
    ensures text.Text?
    ensures Ingest(opts, now, text).value == Reference(opts, now, StreamBlocks(text), |StreamBlocks(text)|)
  {
    var all := StreamBlocks(text);
    assert all[0..] == all;
    assert Reference(opts, now, all, 0) == EmptyState;
    IngestFrom(opts, now, all, 0, text.lines + [text.last], 1);
  }

  /* ---------- properties of the reference ---------- */

  /** A single forward pass: whether a block is left out depends only on the
      block and those before it, so a block that comes before its root in the
      stream is not left out on the root's account. */
  lemma {:induction false} ExcludedForward(opts: ConvertOptions, bs: seq<Block>, later: seq<Block>, i: nat)
    requires i < |bs|
    ensures Excluded(opts, bs + later, i) == Excluded(opts, bs, i)
    decreases i
  {
    forall j | 0 <= j < i
      ensures Excluded(opts, bs + later, j) == Excluded(opts, bs, j)
    {
      ExcludedForward(opts, bs, later, j);
    }
    assert (bs + later)[i] == bs[i];
    assert forall j :: 0 <= j < i ==> (bs + later)[j] == bs[j];
  }

  /** Without template mode nothing is ever left out. */
  lemma {:induction false} NothingExcluded(opts: ConvertOptions, bs: seq<Block>, i: nat)
    requires !opts.templateMode && i < |bs|
    ensures !Excluded(opts, bs, i)
    decreases i
  {
    forall j | 0 <= j < i
      ensures !Excluded(opts, bs, j)
    {
      NothingExcluded(opts, bs, j);
    }
  }

  /** The filed blocks under `key` are exactly the stamped blocks that are not
      left out and belong to `key`. */
  lemma {:induction false} FiledMembers(opts: ConvertOptions, now: int, bs: seq<Block>, key: string, n: nat)
    requires n <= |bs|
    ensures forall x :: x in Filed(opts, now, bs, key, n) <==>
      exists j :: 0 <= j < n && !Excluded(opts, bs, j) && KeyOf(bs[j]) == key && x == Some(Stamp(opts, now, bs[j]))
  {
    if n > 0 {
      FiledMembers(opts, now, bs, key, n - 1);
    }
  }

  /** Every block of the stream that is not left out is filed under its own
      board, and under no other board. */
  lemma FiledOnce(opts: ConvertOptions, now: int, bs: seq<Block>, j: nat)
    requires j < |bs| && !Excluded(opts, bs, j)
    ensures var st := Reference(opts, now, bs, |bs|);
      && KeyOf(bs[j]) in st.buckets
      && Some(Stamp(opts, now, bs[j])) in st.buckets[KeyOf(bs[j])]
      && forall key :: key in st.buckets && Some(Stamp(opts, now, bs[j])) in st.buckets[key] ==> key == KeyOf(bs[j])
  {
    var st := Reference(opts, now, bs, |bs|);
    var x := Some(Stamp(opts, now, bs[j]));
    FiledMembers(opts, now, bs, KeyOf(bs[j]), |bs|);
    assert KeyOf(bs[j]) in FiledKeys(opts, bs, |bs|);
    forall key | key in st.buckets && x in st.buckets[key]
      ensures key == KeyOf(bs[j])
    {
      assert x !in InitialSlots();
      FiledMembers(opts, now, bs, key, |bs|);
      var i :| 0 <= i < |bs| && !Excluded(opts, bs, i) && KeyOf(bs[i]) == key && x == Some(Stamp(opts, now, bs[i]));
    }
  }

  /** Without template mode the exclusion set stays empty and every block of
      the archive is filed under its board. */
  lemma IngestWithoutTemplateMode(opts: ConvertOptions, now: int, text: ArchiveText)
    requires !opts.templateMode && Ingest(opts, now, text).Success?
    ensures text.Text?
    ensures Ingest(opts, now, text).value.exclude == {}
    ensures forall b :: b in StreamBlocks(text) ==>
      KeyOf(b) in Ingest(opts, now, text).value.buckets
      && Some(Stamp(opts, now, b)) in Ingest(opts, now, text).value.buckets[KeyOf(b)]
  {
    IngestIsReference(opts, now, text);
    var bs := StreamBlocks(text);
    forall j | 0 <= j < |bs|
      ensures !Excluded(opts, bs, j)
    {
      NothingExcluded(opts, bs, j);
    }
    forall b | b in bs
      ensures KeyOf(b) in Ingest(opts, now, text).value.buckets
      ensures Some(Stamp(opts, now, b)) in Ingest(opts, now, text).value.buckets[KeyOf(b)]
    {
      var j :| 0 <= j < |bs| && bs[j] == b;
      FiledOnce(opts, now, bs, j);
    }
  }

  /** Without template mode no line is left out, so the counter names the
      physical line: the i-th line after the header is line `n + i`. */
  lemma {:induction false} NumberingWithoutTemplateMode(opts: ConvertOptions, lines: seq<LineValue>, n: int, i: nat)
    requires !opts.templateMode
    requires i <= |lines| && forall j :: 0 <= j < i ==> WellFormed(lines[j])
    ensures ExcludeAt(opts, {}, lines, i) == {}
    ensures NumberAt(opts, {}, lines, n, i) == n + i
  {
    if i > 0 {
      NumberingWithoutTemplateMode(opts, lines, n, i - 1);
    }
  }

  /** In template mode a template block is left out and its ID excluded, and
      so is every later block whose RootID is that ID. */
  lemma TemplateExcluded(opts: ConvertOptions, bs: seq<Block>, i: nat, j: nat)
    requires opts.templateMode && i < j < |bs| && IsTemplate(bs[i]) && bs[j].rootID == bs[i].id
    ensures Excluded(opts, bs, i) && bs[i].id in ExcludedIDs(opts, bs, |bs|)
    ensures Excluded(opts, bs, j) && bs[j].id in ExcludedIDs(opts, bs, |bs|)
  {
  }

  /* ---------- the written archive ---------- */

  /** Clearing slots keeps every remaining block where it was filed. */
  lemma RemoveOrphansKeepsFiling(buckets: Buckets, order: seq<string>, now: int)
    requires IsEnumeration(order, buckets.Keys)
    requires WellFiled(buckets, now) && RemoveOrphansAll(buckets, order).Success?
    ensures WellFiled(RemoveOrphansAll(buckets, order).value, now)
  {
    var cleaned: Buckets := RemoveOrphansAll(buckets, order).value;
    forall key: string, i: int | key in cleaned && 0 <= i < |cleaned[key]| && cleaned[key][i].Some?
      ensures KeyOf(cleaned[key][i].value) == key
      ensures cleaned[key][i].value.modifiedBy == cleaned[key][i].value.createdBy
      ensures cleaned[key][i].value.updateAt == now
    {
      assert Success(cleaned[key]) == RemoveOrphans(buckets[key]);
      assert cleaned[key][i] == buckets[key][i];
    }
  }

  /** Every block line of a board.jsonl the writer plans sits in the bucket
      the board file is named after. */
  lemma PlannedLinesFiled(buckets: Buckets, order: seq<string>, now: int, assetExists: (string, string) -> bool)
    requires IsEnumeration(order, buckets.Keys) && WellFiled(buckets, now)
    ensures var plan := CreateArchive(buckets, order, now, assetExists);
      forall e, line :: e in plan.entries && e.content.BoardFile? && line in e.content.lines ==>
        && line.lineType == BlockLineType
        && KeyOf(line.data) == e.content.boardID
        && line.data.modifiedBy == line.data.createdBy
        && line.data.updateAt == now
  {
    var plan := CreateArchive(buckets, order, now, assetExists);
    forall e, line | e in plan.entries && e.content.BoardFile? && line in e.content.lines
      ensures line.lineType == BlockLineType && KeyOf(line.data) == e.content.boardID
      ensures line.data.modifiedBy == line.data.createdBy && line.data.updateAt == now
    {
      var id := e.content.boardID;
      assert e == BoardEntry(id, buckets[id]);
      var k :| 0 <= k < |e.content.lines| && e.content.lines[k] == line;
      var b := Present(buckets[id])[k];
      assert b in Present(buckets[id]);
      var i :| 0 <= i < |buckets[id]| && buckets[id][i] == Some(b);
    }
  }

  /** Every block line of a written board.jsonl belongs to that board: it is
      a board whose ID is the board's, or a block whose RootID is; it is
      tagged "block" and carries its creator as last modifier and the
      conversion time as update time. */
  lemma ArchivedBlocksFiled(opts: ConvertOptions, now: int, text: ArchiveText, order: seq<string>, assetExists: (string, string) -> bool)
    requires Ingest(opts, now, text).Success? ==> IsEnumeration(order, Ingest(opts, now, text).value.buckets.Keys)
    requires Convert(opts, now, text, order, assetExists).Archived?
    ensures var plan := Convert(opts, now, text, order, assetExists).plan;
      forall e, line :: e in plan.entries && e.content.BoardFile? && line in e.content.lines ==>
        && line.lineType == BlockLineType
        && KeyOf(line.data) == e.content.boardID
        && line.data.modifiedBy == line.data.createdBy
        && line.data.updateAt == now
  {
    var st := Ingest(opts, now, text).value;
    RemoveOrphansKeepsFiling(st.buckets, order, now);
    var cleaned: Buckets := RemoveOrphansAll(st.buckets, order).value;
    PlannedLinesFiled(cleaned, order, now, assetExists);
  }

  /** The image report after a successful orphan pass (IDs unique within the
      board): no kept image ends the run, and an image is reported as an
      orphan only when its board or its card cannot be found. */
  lemma KeptImagesReported(bucket: Bucket, b: Block)
    requires UniqueIDs(bucket) && RemoveOrphans(bucket).Success?
    requires b in ImagesIn(RemoveOrphans(bucket).value)
    ensures var r := RemoveOrphans(bucket).value;
      && ClassifyImage(b, r).Success?
      && (ClassifyImage(b, r).value.OrphanImage? ==> GetBlockByID(b.rootID, r).None? || GetCard(b, r).NoCard?)
  {
    var r := RemoveOrphans(bucket).value;
    assert b in Present(r);
    var i :| 0 <= i < |r| && r[i] == Some(b);
    KeptAgain(bucket, r, i);
  }
}

=== FILE: decimal.dfy ===
/**
 * Decimal rendering of integers, as Go's `%d` verb prints them (an optional
 * minus sign followed by digits without leading zeros), and the parse that
 * inverts it. The error messages of errors.go embed such numerals.
 */
module Decimal {

  predicate IsDigit(c: char) {
    '0' <= c <= '9'
  }

  /** A numeral as `%d` prints one: an optional '-' then at least one digit,
      with no leading zero, so that zero is "0" and never "-0". */
  predicate IsNumeral(s: string) {
    && |s| >= 1
    && (s[0] == '-' || IsDigit(s[0]))
    && (forall i :: 1 <= i < |s| ==> IsDigit(s[i]))
    && (s[0] == '0' ==> |s| == 1)
    && (s[0] == '-' ==> |s| >= 2 && s[1] != '0')
  }

  /** A digit string as `%d` prints a natural number: no leading zero. */
  predicate IsCanonicalDigits(t: string) {
    && |t| >= 1
    && (forall i :: 0 <= i < |t| ==> IsDigit(t[i]))
    && (t[0] == '0' ==> |t| == 1)
  }

  function DigitChar(d: nat): (c: char)
    requires d < 10
    ensures IsDigit(c)
  {
    ('0' as int + d) as char
  }

  function DigitValue(c: char): (d: nat)
    requires IsDigit(c)
    ensures d < 10
  {
    c as int - '0' as int
  }

  /** The digits of `n`, most significant first. */
  function NatToString(n: nat): (s: string)
    ensures |s| >= 1
    ensures forall i :: 0 <= i < |s| ==> IsDigit(s[i])
    ensures (s[0] == '0') == (n == 0)
    ensures n == 0 ==> |s| == 1
  {
    if n < 10 then [DigitChar(n)] else NatToString(n / 10) + [DigitChar(n % 10)]
  }

  /** `fmt.Sprintf("%d", n)`. */
  function IntToString(n: int): (s: string)
    ensures IsNumeral(s)
    ensures (n < 0) == (s[0] == '-')
  {
    if n < 0 then "-" + NatToString(-n) else NatToString(n)
  }

  /** The value of a digit string. */
  function ParseNat(s: string): nat
    requires forall i :: 0 <= i < |s| ==> IsDigit(s[i])
  {
    if |s| == 0 then 0 else ParseNat(s[..|s| - 1]) * 10 + DigitValue(s[|s| - 1])
  }

  /** The value of a numeral. */
  function ParseInt(s: string): int
    requires IsNumeral(s)
  {
    if s[0] == '-' then -(ParseNat(s[1..]) as int) else ParseNat(s)
  }

  lemma {:induction false} NatRoundTrip(n: nat)
    ensures ParseNat(NatToString(n)) == n
  {
    if n >= 10 {
      var s := NatToString(n);
      assert s[..|s| - 1] == NatToString(n / 10);
      NatRoundTrip(n / 10);
    }
  }

  /** Parsing a printed integer gives the integer back. */
  lemma IntRoundTrip(n: int)
    ensures ParseInt(IntToString(n)) == n
  {
    if n < 0 {
      var digits := NatToString(-n);
      var s := IntToString(n);
      assert s == "-" + digits;
      assert s[1..] == digits;
      NatRoundTrip(-n);
      assert ParseInt(s) == -(ParseNat(digits) as int);
    } else {
      NatRoundTrip(n);
    }
  }

  /** A digit string without a leading zero has a positive value unless it
      is "0". */
  lemma {:induction false} ParseNatPositive(t: string)
    requires IsCanonicalDigits(t) && t[0] != '0'
    ensures ParseNat(t) >= 1
  {
    if |t| > 1 {
      var p := t[..|t| - 1];
      assert p[0] == t[0];
      ParseNatPositive(p);
    }
  }

  /** Printing the value of a digit string without a leading zero gives the
      string back: such a string is the only one `%d` could have printed. */
  lemma {:induction false} CanonicalRoundTrip(t: string)
    requires IsCanonicalDigits(t)
    ensures NatToString(ParseNat(t)) == t
  {
    var last := t[|t| - 1];
    var d := DigitValue(last);
    assert DigitChar(d) == last;
    if |t| == 1 {
      assert t[..0] == [];
      assert ParseNat(t) == d;
    } else {
      var p := t[..|t| - 1];
      assert p[0] == t[0];
      ParseNatPositive(p);
      CanonicalRoundTrip(p);
      var n := ParseNat(t);
      assert n == ParseNat(p) * 10 + d;
      assert n / 10 == ParseNat(p) && n % 10 == d;
      assert t == p + [last];
    }
  }

  /** A numeral is the `%d` rendering of its value: no other string of the
      numeral shape parses to the same integer. */
  lemma NumeralUnique(s: string, n: int)
    requires IsNumeral(s) && ParseInt(s) == n
    ensures s == IntToString(n)
  {
    if s[0] == '-' {
      var t := s[1..];
      assert t[0] == s[1];
      ParseNatPositive(t);
      CanonicalRoundTrip(t);
      assert s == "-" + t;
    } else {
      CanonicalRoundTrip(s);
    }
  }

  /** Distinct integers print differently. */
  lemma IntToStringInjective(a: int, b: int)
    requires IntToString(a) == IntToString(b)
    ensures a == b
  {
    IntRoundTrip(a);
    IntRoundTrip(b);
  }
}

=== FILE: errors.dfy ===
/**
 * The typed errors of errors.go, their `Error()` messages, and every other
 * way one conversion can stop early (the wrapped `fmt.Errorf` errors of
 * convert.go, the fatal exits of util.go, and the one place where the Go
 * program never returns).
 */
module Errors {
  import opened Decimal

  /** The three error values errors.go declares. The Go constructor functions
      `NewErrUnsupportedArchiveVersion` and `NewErrUnsupportedArchiveLineType`
      store their arguments unchanged, so they are the datatype constructors. */
  datatype ArchiveError =
    | UnsupportedArchiveVersion(got: int, want: int)
    | UnsupportedArchiveLineType(line: int, tag: string)
    | InvalidImageBlock

  const VersionPrefix: string := "unsupported archive version; got "
  const WantInfix: string := ", want "
  const LineTypePrefix: string := "unsupported archive line type; got "
  const LineInfix: string := ", line "
  const InvalidImageBlockText: string := "invalid image block"

  /** The text `Error()` returns for each value. */
  function Message(e: ArchiveError): (m: string)
    ensures e.UnsupportedArchiveVersion? ==> VersionPrefix <= m && m[|VersionPrefix|..] == IntToString(e.got) + WantInfix + IntToString(e.want)
    ensures e.UnsupportedArchiveLineType? ==> LineTypePrefix <= m && m[|LineTypePrefix|..] == e.tag + LineInfix + IntToString(e.line)
    ensures e.InvalidImageBlock? ==> m == InvalidImageBlockText
  {
    match e
    case UnsupportedArchiveVersion(got, want) =>
      VersionPrefix + IntToString(got) + WantInfix + IntToString(want)
    case UnsupportedArchiveLineType(line, tag) =>
      LineTypePrefix + tag + LineInfix + IntToString(line)
    case InvalidImageBlock =>
      InvalidImageBlockText
  }

  /** Every reason a conversion run ends without producing its result. */
  datatype ConvertError =
    | ArchiveFailure(cause: ArchiveError)   // a typed error of errors.go
    | HeaderNotRead                         // the first read hit end of input: "error reading archive header"
    | VersionNotRead                        // the header does not decode: "cannot read archive version"
    | LineNotParsed(line: int)              // "error parsing archive line <n>"
    | BlockNotParsed(line: int)             // "invalid block in archive line <n>"
    | InvalidContentOrder(cardID: string)   // fatal exit: contentOrder is not a list
    | InvalidContentOrderString(cardID: string)  // fatal exit: a contentOrder entry is not a string
    | ParentCycle(blockID: string)          // the card lookup of this block never returns

  /** The input line an error points at, for the errors that name one. */
  function ErrorLine(e: ConvertError): int
    requires e.LineNotParsed? || e.BlockNotParsed? || (e.ArchiveFailure? && e.cause.UnsupportedArchiveLineType?)
  {
    match e
    case LineNotParsed(n) => n
    case BlockNotParsed(n) => n
    case ArchiveFailure(cause) => cause.line
  }

  /* ---------- messages identify their error ---------- */

  /** A numeral followed by a text that starts with a character a numeral
      never holds splits in only one way. */
  lemma SplitAfterNumeral(a: string, rest: string, a': string, rest': string)
    requires IsNumeral(a) && IsNumeral(a')
    requires |rest| > 0 && |rest'| > 0 && rest[0] == ',' && rest'[0] == ','
    requires a + rest == a' + rest'
    ensures a == a' && rest == rest'
  {
    assert a == (a + rest)[..|a|];
    assert a' == (a' + rest')[..|a'|];
    assert rest == (a + rest)[|a|..];
    assert rest' == (a' + rest')[|a'|..];
  }

  /** A text ending in a space followed by a numeral splits in only one way. */
  lemma SplitBeforeNumeral(front: string, d: string, front': string, d': string)
    requires IsNumeral(d) && IsNumeral(d')
    requires |front| > 0 && |front'| > 0 && front[|front| - 1] == ' ' && front'[|front'| - 1] == ' '
    requires front + d == front' + d'
    ensures front == front' && d == d'
  {
    var s := front + d;
    assert front == s[..|front|];
    assert front' == (front' + d')[..|front'|];
    assert d == s[|front|..];
    assert d' == (front' + d')[|front'|..];
  }

  lemma DropPrefix(p: string, x: string, y: string)
    requires p + x == p + y
    ensures x == y
  {
    assert x == (p + x)[|p|..];
    assert y == (p + y)[|p|..];
  }

  /** Two version errors with the same message carry the same got and want. */
  lemma VersionMessageInjective(got: int, want: int, got': int, want': int)
    requires Message(UnsupportedArchiveVersion(got, want)) == Message(UnsupportedArchiveVersion(got', want'))
    ensures got == got' && want == want'
  {
    var g, w, g', w' := IntToString(got), IntToString(want), IntToString(got'), IntToString(want');
    assert Message(UnsupportedArchiveVersion(got, want)) == VersionPrefix + (g + (WantInfix + w));
    assert Message(UnsupportedArchiveVersion(got', want')) == VersionPrefix + (g' + (WantInfix + w'));
    DropPrefix(VersionPrefix, g + (WantInfix + w), g' + (WantInfix + w'));
    SplitAfterNumeral(g, WantInfix + w, g', WantInfix + w');
    DropPrefix(WantInfix, w, w');
    IntToStringInjective(got, got');
    IntToStringInjective(want, want');
  }

  /** Two line-type errors with the same message carry the same line number
      and the same tag, whatever characters the tag holds. */
  lemma LineTypeMessageInjective(line: int, got: string, line': int, got': string)
    requires Message(UnsupportedArchiveLineType(line, got)) == Message(UnsupportedArchiveLineType(line', got'))
    ensures line == line' && got == got'
  {
    var d, d' := IntToString(line), IntToString(line');
    var front, front' := LineTypePrefix + got + LineInfix, LineTypePrefix + got' + LineInfix;
    assert front[|front| - 1] == ' ';
    assert front'[|front'| - 1] == ' ';
    SplitBeforeNumeral(front, d, front', d');
    IntToStringInjective(line, line');
    assert (LineTypePrefix + got) + LineInfix == (LineTypePrefix + got') + LineInfix;
    assert LineTypePrefix + got == (front)[..|front| - |LineInfix|];
    assert LineTypePrefix + got' == (front')[..|front'| - |LineInfix|];
    DropPrefix(LineTypePrefix, got, got');
  }

  /** The first character of every message, and the character where the two
      "unsupported archive ..." messages first differ. */
  lemma MessageHead(e: ArchiveError)
    ensures |Message(e)| > 0 && (!e.InvalidImageBlock? ==> |Message(e)| > 20)
    ensures Message(e)[0] == (if e.InvalidImageBlock? then 'i' else 'u')
    ensures !e.InvalidImageBlock? ==> Message(e)[20] == (if e.UnsupportedArchiveVersion? then 'v' else 'l')
  {
    match e {
      case UnsupportedArchiveVersion(g, w) =>
        assert Message(e) == VersionPrefix + (IntToString(g) + WantInfix + IntToString(w));
      case UnsupportedArchiveLineType(l, t) =>
        assert Message(e) == LineTypePrefix + (t + LineInfix + IntToString(l));
      case InvalidImageBlock =>
    }
  }

  /** Errors of different kinds never share a message, so with the two lemmas
      above the message determines the error. */
  lemma MessageInjective(a: ArchiveError, b: ArchiveError)
    requires Message(a) == Message(b)
    ensures a == b
  {
    MessageHead(a);
    MessageHead(b);
    match a {
      case UnsupportedArchiveVersion(g, w) =>
        if b.UnsupportedArchiveVersion? {
          VersionMessageInjective(g, w, b.got, b.want);
        }
      case UnsupportedArchiveLineType(l, t) =>
        if b.UnsupportedArchiveLineType? {
          LineTypeMessageInjective(l, t, b.line, b.tag);
        }
      case InvalidImageBlock =>
    }
  }
}

=== FILE: scenarios.dfy ===
/**
 * Fixed inputs and what the model yields for them: one board with one
 * card, the orphan that card does not list, a template board whose blocks
 * follow it out of the archive, line numbering across a blank line, the
 * version gate, an image whose file is missing, and an invalid image block
 * whose error the deferred close of the zip hides.
 */
module Scenarios {
  import opened Wrappers
  import opened Blocks
  import opened Errors
  import opened Util
  import opened Archive
  import opened Converter

  function MakeBlock(id: string, parentID: string, rootID: string, blockType: string, fields: map<string, JsonValue>): Block {
    Block(id, parentID, rootID, "u1", "u2", blockType, "", fields, 0)
  }

  const Board: Block := MakeBlock("B", "", "B", BoardType, map[])
  const CardC: Block := MakeBlock("C", "B", "B", CardType, map[ContentOrderKey := JArray([JString("b1")])])
  const B1: Block := MakeBlock("b1", "C", "B", "text", map[])
  const B2: Block := MakeBlock("b2", "C", "B", "text", map[])

  function Sample(): Bucket {
    [Some(Board), Some(CardC), Some(B1), Some(B2)]
  }

  lemma SampleCards()
    ensures GetCard(B1, Sample()) == Card(CardC) && GetCard(B2, Sample()) == Card(CardC)
  {
    var bucket := Sample();
    assert !HasID(bucket[0], "C") && HasID(bucket[1], "C");
    assert IndexOfID("C", bucket) == Some(1);
  }

  lemma SampleListing()
    ensures IsInContentOrder(Some(CardC), Some(B1)) == Success(true)
    ensures IsInContentOrder(Some(CardC), Some(B2)) == Success(false)
  {
    assert ScanContentOrder([JString("b1")], "b2", "C", 1) == Success(false);
  }

  lemma SampleLastSlot()
    ensures RemoveOrphansFrom(Sample(), 3) == Success(Sample()[3 := None])
  {
    SampleCards();
    SampleListing();
    assert RemoveOrphansFrom(Sample()[3 := None], 4) == Success(Sample()[3 := None]);
  }

  lemma SampleFirstSlots()
    ensures RemoveOrphansFrom(Sample(), 0) == RemoveOrphansFrom(Sample(), 3)
  {
    SampleCards();
    SampleListing();
    assert RemoveOrphansFrom(Sample(), 1) == RemoveOrphansFrom(Sample(), 2);
  }

  /** A card listing only `b1`, with children `b1` and `b2`: the pass clears
      `b2` and keeps the board, the card and `b1`. */
  lemma OrphanRemoved()
    ensures RemoveOrphans([Some(Board), Some(CardC), Some(B1), Some(B2)])
      == Success([Some(Board), Some(CardC), Some(B1), None])
  {
    SampleFirstSlots();
    SampleLastSlot();
    assert Sample()[3 := None] == [Some(Board), Some(CardC), Some(B1), None];
  }

  const TemplateBoard: Block := MakeBlock("T", "", "T", BoardType, map[IsTemplateKey := JBool(true)])
  const TemplateCard: Block := MakeBlock("TC", "T", "T", CardType, map[])
  const TemplateText: Block := MakeBlock("TG", "TC", "T", "text", map[])

  function BlockLine(b: Block): LineValue {
    Envelope(BlockLineType, BlockPayload(b))
  }

  /** In template mode a template board, its card and the card's content all
      stay out of the buckets, and all three IDs are excluded. */
  lemma TemplateChainExcluded(now: int)
    ensures Ingest(ConvertOptions(true, false), now,
      Text(HeaderDecoded(ArchiveHeader(1, 0)), [BlockLine(TemplateBoard), BlockLine(TemplateCard), BlockLine(TemplateText)], Blank))
      == Success(IngestState({"T", "TC", "TG"}, map[]))
  {
    var opts := ConvertOptions(true, false);
    var lines := [BlockLine(TemplateBoard), BlockLine(TemplateCard), BlockLine(TemplateText)] + [Blank];
    assert IsTemplate(TemplateBoard);
    var s1 := IngestState({"T"}, map[]);
    var s2 := IngestState({"T", "TC"}, map[]);
    var s3 := IngestState({"T", "TC", "TG"}, map[]);
    assert AcceptBlock(opts, now, EmptyState, TemplateBoard) == s1;
    assert AcceptBlock(opts, now, s1, TemplateCard) == s2;
    assert AcceptBlock(opts, now, s2, TemplateText) == s3;
    assert IngestLines(opts, now, s3, lines[3..], 1) == Success(s3);
    assert IngestLines(opts, now, s2, lines[2..], 1) == Success(s3);
    assert IngestLines(opts, now, s1, lines[1..], 1) == Success(s3);
    assert IngestLines(opts, now, EmptyState, lines, 1) == Success(s3);
  }

  /** A blank line still counts: an unknown line type after one blank line is
      reported on line 2. */
  lemma UnknownTypeAfterBlank(opts: ConvertOptions, now: int)
    ensures Ingest(opts, now, Text(HeaderDecoded(ArchiveHeader(1, 0)), [Blank, Envelope("unknown", BadPayload)], Blank))
      == Failure(ArchiveFailure(UnsupportedArchiveLineType(2, "unknown")))
  {
    var lines := [Blank, Envelope("unknown", BadPayload)] + [Blank];
    assert IngestLines(opts, now, EmptyState, lines[1..], 2) == Failure(ArchiveFailure(UnsupportedArchiveLineType(2, "unknown")));
  }

  /** In template mode a template board's line does not advance the line
      counter: an unknown line type right after it is reported on line 1. */
  lemma ExcludedLineNotCounted(now: int)
    ensures Ingest(ConvertOptions(true, false), now,
      Text(HeaderDecoded(ArchiveHeader(1, 0)), [BlockLine(TemplateBoard), Envelope("unknown", BadPayload)], Blank))
      == Failure(ArchiveFailure(UnsupportedArchiveLineType(1, "unknown")))
  {
    var opts := ConvertOptions(true, false);
    var lines := [BlockLine(TemplateBoard), Envelope("unknown", BadPayload)] + [Blank];
    var s1 := IngestState({"T"}, map[]);
    assert IsTemplate(TemplateBoard);
    assert AcceptBlock(opts, now, EmptyState, TemplateBoard) == s1;
    assert IngestLines(opts, now, s1, lines[1..], 1) == Failure(ArchiveFailure(UnsupportedArchiveLineType(1, "unknown")));
  }

  /** A version-2 archive is refused, whatever follows the header. */
  lemma VersionGate(opts: ConvertOptions, now: int, lines: seq<LineValue>, last: LineValue, order: seq<string>, assetExists: (string, string) -> bool)
    ensures Convert(opts, now, Text(HeaderDecoded(ArchiveHeader(2, 5)), lines, last), order, assetExists)
      == Failed(ArchiveFailure(UnsupportedArchiveVersion(2, 1)))
  {
  }

  const Image: Block := MakeBlock("i1", "C", "B", ImageType, map[FileIdKey := JString("pic.png")])

  /** No image file can be opened. */
  function NoAssets(boardID: string, filename: string): bool {
    false
  }

  /** An image whose file is missing is still written to board.jsonl, gets no
      copy, and the board is written without error. */
  lemma MissingAssetTolerated()
    ensures WriteBoard("B", [Some(Board), Some(Image)], NoAssets)
      == Plan([Entry("B/board.jsonl", BoardFile("B", [ArchiveLine(BlockLineType, Board), ArchiveLine(BlockLineType, Image)]))], None)
  {
    var bucket := [Some(Board), Some(Image)];
    var never := NoAssets;
    assert "B" + "/" + BoardFileName == "B/board.jsonl";
    assert bucket[1..][1..] == [];
    assert BoardLines(bucket[1..]) == [ArchiveLine(BlockLineType, Image)];
    assert BoardLines(bucket) == [ArchiveLine(BlockLineType, Board), ArchiveLine(BlockLineType, Image)];
    assert ExtractImageFilename(Image) == Success("pic.png");
    assert CopyImages("B", bucket[1..][1..], never) == Plan([], None);
    assert CopyImages("B", bucket[1..], never) == Plan([], None);
    assert CopyImages("B", bucket, never) == Plan([], None);
  }

  const BadImage: Block := MakeBlock("i2", "C", "B", ImageType, map[])

  /** An image block without a `fileId` stops the archive; the Go code still
      reports success once the zip closes. */
  lemma ImageErrorLostOnClose(now: int)
    ensures CreateArchive(map["B" := [Some(Board), Some(BadImage)]], ["B"], now, NoAssets).error
      == Some(ArchiveFailure(InvalidImageBlock))
    ensures CreateArchiveAsWritten(map["B" := [Some(Board), Some(BadImage)]], ["B"], now, NoAssets).error == None
  {
    var buckets := map["B" := [Some(Board), Some(BadImage)]];
    assert BadImage in ImagesIn(buckets["B"]);
    assert ExtractImageFilename(BadImage).Failure?;
    CloseMasksBoardError(buckets, ["B"], now, NoAssets);
  }
}

=== FILE: util.dfy ===
/**
 * The lookups and the orphan filter of util.go: first-match lookup by ID,
 * the walk up `ParentID` links to the owning card, membership in a card's
 * `contentOrder`, and the in-place tombstoning pass over a board's bucket.
 */
module Util {
  import opened Wrappers
  import opened Blocks
  import opened Errors

  /* ---------- getBlockByID ---------- */

  /** Index of the first non-nil slot at or after `i` holding a block with ID `id`. */
  function IndexFrom(id: string, bucket: Bucket, i: nat): (r: Option<nat>)
    requires i <= |bucket|
    ensures r.Some? ==> i <= r.value < |bucket| && HasID(bucket[r.value], id)
    ensures r.Some? ==> forall j :: i <= j < r.value ==> !HasID(bucket[j], id)
    ensures r.None? ==> forall j :: i <= j < |bucket| ==> !HasID(bucket[j], id)
    decreases |bucket| - i
  {
    if i == |bucket| then None
    else if HasID(bucket[i], id) then Some(i)
    else IndexFrom(id, bucket, i + 1)
  }

  /** Index of the first non-nil slot holding a block with ID `id`. */
  function IndexOfID(id: string, bucket: Bucket): (r: Option<nat>)
    ensures r.Some? ==> r.value < |bucket| && HasID(bucket[r.value], id)
    ensures r.Some? ==> forall j :: 0 <= j < r.value ==> !HasID(bucket[j], id)
    ensures r.None? ==> forall j :: 0 <= j < |bucket| ==> !HasID(bucket[j], id)
  {
    IndexFrom(id, bucket, 0)
  }

  /** `getBlockByID`: the first non-nil block of the bucket with ID `id`, if any. */
  function GetBlockByID(id: string, bucket: Bucket): (r: Option<Block>)
    ensures r.Some? ==> r.value.id == id
    ensures r.Some? ==> Some(r.value) in bucket
    ensures r.None? <==> forall j :: 0 <= j < |bucket| ==> !HasID(bucket[j], id)
  {
    match IndexOfID(id, bucket)
    case None => None
    case Some(i) => bucket[i]
  }

  /** The block found is the first one carrying the ID: earlier duplicates win. */
  lemma GetBlockByIDFirstMatch(id: string, bucket: Bucket, i: nat)
    requires i < |bucket| && HasID(bucket[i], id)
    requires forall j :: 0 <= j < i ==> !HasID(bucket[j], id)
    ensures GetBlockByID(id, bucket) == bucket[i]
  {
  }

  /* ---------- getCard ---------- */

  /** The block reached from `b` after `k` steps up `ParentID` links, each step a
      `getBlockByID` in the bucket; step 0 is `b` itself, `None` once a lookup fails. */
  function Ancestor(b: Block, bucket: Bucket, k: nat): Option<Block>
  {
    if k == 0 then Some(b) else Up(Ancestor(b, bucket, k - 1), bucket)
  }

  /** One step of the walk: the parent of `a`, looked up by ID. */
  function Up(a: Option<Block>, bucket: Bucket): Option<Block> {
    match a
    case None => None
    case Some(x) => GetBlockByID(x.parentID, bucket)
  }

  /** The `k`-th ancestor of `b` exists and is not a card. */
  predicate NonCardAncestor(b: Block, bucket: Bucket, k: nat) {
    Ancestor(b, bucket, k).Some? && Ancestor(b, bucket, k).value.blockType != CardType
  }

  /** Every ancestor strictly between `b` and step `k` exists and is not a card. */
  predicate NonCardBelow(b: Block, bucket: Bucket, k: nat) {
    forall j :: 1 <= j < k ==> NonCardAncestor(b, bucket, j)
  }

  /** What the card lookup of a block ends in. `Cycle` stands for the Go loop
      that never returns: the walk came back to a block it had already left. */
  datatype CardLookup = NoCard | Card(card: Block) | Cycle

  lemma BoundedSetSize(s: set<nat>, n: nat)
    requires forall i :: i in s ==> i < n
    ensures |s| <= n
  {
    if n > 0 {
      BoundedSetSize(s - {n - 1}, n - 1);
    }
  }

  /** The loop of `getCard`, from `cur` upwards; `visited` holds the slots
      the loop has already moved through. */
  function WalkUp(bucket: Bucket, cur: Block, visited: set<nat>): (r: CardLookup)
    requires forall i :: i in visited ==> i < |bucket|
    ensures r.Card? ==> r.card.blockType == CardType && Some(r.card) in bucket
    decreases |bucket| - |visited|
  {
    match IndexOfID(cur.parentID, bucket)
    case None => NoCard
    case Some(i) =>
      var parent := bucket[i].value;
      if parent.blockType == CardType then Card(parent)
      else if i in visited then Cycle
      else
        BoundedSetSize(visited + {i}, |bucket|);
        WalkUp(bucket, parent, visited + {i})
  }

  /** `getCard`: nothing for a board, the block itself for a card, otherwise
      the first card among its ancestors. The walk ends with `NoCard` at the
      first missing parent; `Cycle` means every ancestor exists and none is a
      card, so the Go loop runs forever. */
  function GetCard(b: Block, bucket: Bucket): (r: CardLookup)
    ensures b.blockType == BoardType ==> r == NoCard
    ensures b.blockType == CardType ==> r == Card(b)
    ensures r.Card? ==> r.card.blockType == CardType
    ensures r.Card? && b.blockType != CardType ==> Some(r.card) in bucket
  {
    if b.blockType == BoardType then NoCard
    else if b.blockType == CardType then Card(b)
    else WalkUp(bucket, b, {})
  }

  /** For any block other than a board or a card, `GetCard` ends where the
      chain of ancestors does: at the first card, at the first missing parent,
      or never (`Cycle`: every ancestor exists and none is a card). */
  lemma GetCardSound(b: Block, bucket: Bucket)
    requires b.blockType != BoardType && b.blockType != CardType
    ensures var r := GetCard(b, bucket);
      && (r.Card? ==> exists m :: m >= 1 && NonCardBelow(b, bucket, m) && Ancestor(b, bucket, m) == Some(r.card))
      && (r.NoCard? ==> exists m :: m >= 1 && NonCardBelow(b, bucket, m) && Ancestor(b, bucket, m).None?)
      && (r.Cycle? ==> forall m :: m >= 1 ==> NonCardAncestor(b, bucket, m))
  {
    WalkUpSound(b, bucket, 0, {});
  }

  /** Following links from a block that recurs along the chain repeats the chain. */
  lemma {:induction false} PeriodicAncestor(b: Block, bucket: Bucket, j: nat, n: nat, m: nat)
    requires 1 <= j < n && Ancestor(b, bucket, j) == Ancestor(b, bucket, n)
    requires m >= j
    ensures Ancestor(b, bucket, m + (n - j)) == Ancestor(b, bucket, m)
    decreases m
  {
    if m > j {
      PeriodicAncestor(b, bucket, j, n, m - 1);
    }
  }

  /** Once the chain recurs without meeting a card, no ancestor is ever a card or missing. */
  lemma {:induction false} CycleNeverEnds(b: Block, bucket: Bucket, j: nat, n: nat, m: nat)
    requires 1 <= j < n && Ancestor(b, bucket, j) == Ancestor(b, bucket, n)
    requires forall x :: 1 <= x <= n ==> NonCardAncestor(b, bucket, x)
    requires m >= 1
    ensures NonCardAncestor(b, bucket, m)
    decreases m
  {
    if m > n {
      var earlier := m - (n - j);
      PeriodicAncestor(b, bucket, j, n, earlier);
      assert Ancestor(b, bucket, m) == Ancestor(b, bucket, earlier + (n - j));
      CycleNeverEnds(b, bucket, j, n, earlier);
    } else {
      assert 1 <= m <= n;
    }
  }

  /** `x` is one of the ancestors at steps 1 to `k`. */
  predicate OnChain(b: Block, bucket: Bucket, k: nat, x: Option<Block>) {
    exists j :: 1 <= j <= k && Ancestor(b, bucket, j) == x
  }

  /** The walk reaching, at step `k + 1`, a block already met at some step
      from 1 to `k`, with no card so far, goes round forever. */
  lemma ChainRecurs(b: Block, bucket: Bucket, k: nat, x: Option<Block>)
    requires OnChain(b, bucket, k, x) && Ancestor(b, bucket, k + 1) == x
    requires forall j :: 1 <= j <= k + 1 ==> NonCardAncestor(b, bucket, j)
    ensures forall m :: m >= 1 ==> NonCardAncestor(b, bucket, m)
  {
    var j :| 1 <= j <= k && Ancestor(b, bucket, j) == x;
    forall m | m >= 1
      ensures NonCardAncestor(b, bucket, m)
    {
      CycleNeverEnds(b, bucket, j, k + 1, m);
    }
  }

  /** Adding the slot of the ancestor at step `k + 1` keeps every visited
      slot on the chain. */
  lemma ChainExtends(b: Block, bucket: Bucket, k: nat, visited: set<nat>, i: nat)
    requires i < |bucket| && Ancestor(b, bucket, k + 1) == bucket[i]
    requires forall v :: v in visited ==> v < |bucket| && OnChain(b, bucket, k, bucket[v])
    ensures forall v :: v in visited + {i} ==> OnChain(b, bucket, k + 1, bucket[v])
  {
    forall v | v in visited + {i}
      ensures OnChain(b, bucket, k + 1, bucket[v])
    {
      if v == i {
        assert Ancestor(b, bucket, k + 1) == bucket[v];
      } else {
        var j :| 1 <= j <= k && Ancestor(b, bucket, j) == bucket[v];
        assert 1 <= j <= k + 1;
      }
    }
  }

  /** `r` is where the chain of `b` above step `k` ends: the first card on it,
      the first missing parent, or never. */
  ghost predicate ChainEndsIn(b: Block, bucket: Bucket, k: nat, r: CardLookup) {
    && (r.Card? ==> exists m :: m > k && NonCardBelow(b, bucket, m) && Ancestor(b, bucket, m) == Some(r.card))
    && (r.NoCard? ==> exists m :: m > k && NonCardBelow(b, bucket, m) && Ancestor(b, bucket, m).None?)
    && (r.Cycle? ==> forall m :: m >= 1 ==> NonCardAncestor(b, bucket, m))
  }

  /** An end found above step `k + 1` is also one above step `k`. */
  lemma ChainEndsEarlier(b: Block, bucket: Bucket, k: nat, r: CardLookup)
    requires ChainEndsIn(b, bucket, k + 1, r)
    ensures ChainEndsIn(b, bucket, k, r)
  {
  }

  /** What `WalkUp` returns from the `k`-th ancestor, in terms of the chain. */
  lemma {:induction false} WalkUpSound(b: Block, bucket: Bucket, k: nat, visited: set<nat>)
    requires Ancestor(b, bucket, k).Some?
    requires forall j :: 1 <= j <= k ==> NonCardAncestor(b, bucket, j)
    requires forall i :: i in visited ==> i < |bucket|
    requires forall i :: i in visited ==> OnChain(b, bucket, k, bucket[i])
    ensures ChainEndsIn(b, bucket, k, WalkUp(bucket, Ancestor(b, bucket, k).value, visited))
    decreases |bucket| - |visited|
  {
    var cur := Ancestor(b, bucket, k).value;
    var r := WalkUp(bucket, cur, visited);
    assert Ancestor(b, bucket, k + 1) == GetBlockByID(cur.parentID, bucket);
    assert NonCardBelow(b, bucket, k + 1);
    match IndexOfID(cur.parentID, bucket) {
      case None =>
        assert r == NoCard && Ancestor(b, bucket, k + 1).None?;
      case Some(i) =>
        var parent := bucket[i].value;
        assert Ancestor(b, bucket, k + 1) == Some(parent);
        if parent.blockType == CardType {
          assert r == Card(parent);
        } else if i in visited {
          assert r == Cycle;
          ChainRecurs(b, bucket, k, bucket[i]);
        } else {
          ChainExtends(b, bucket, k, visited, i);
          BoundedSetSize(visited + {i}, |bucket|);
          assert r == WalkUp(bucket, parent, visited + {i});
          WalkUpSound(b, bucket, k + 1, visited + {i});
          ChainEndsEarlier(b, bucket, k, r);
        }
    }
  }

  /** The converse of `GetCard`'s contract: the first card on the chain is the
      card found, and a chain that breaks before any card yields no card. */
  lemma GetCardComplete(b: Block, bucket: Bucket, k: nat)
    requires b.blockType != BoardType && b.blockType != CardType
    requires k >= 1 && NonCardBelow(b, bucket, k)
    ensures Ancestor(b, bucket, k).None? ==> GetCard(b, bucket) == NoCard
    ensures Ancestor(b, bucket, k).Some? && Ancestor(b, bucket, k).value.blockType == CardType ==>
      GetCard(b, bucket) == Card(Ancestor(b, bucket, k).value)
  {
    GetCardSound(b, bucket);
    var r := GetCard(b, bucket);
    if !NonCardAncestor(b, bucket, k) {
      match r {
        case Card(c) =>
          var m :| m >= 1 && NonCardBelow(b, bucket, m) && Ancestor(b, bucket, m) == Some(c);
          assert m < k ==> NonCardAncestor(b, bucket, m);
          assert m > k ==> NonCardAncestor(b, bucket, k);
        case NoCard =>
          var m :| m >= 1 && NonCardBelow(b, bucket, m) && Ancestor(b, bucket, m).None?;
          assert m < k ==> NonCardAncestor(b, bucket, m);
          assert m > k ==> NonCardAncestor(b, bucket, k);
        case Cycle =>
      }
    }
  }

  /* ---------- isInContentOrder ---------- */

  /** `id` occurs in `items` with only strings before it. */
  predicate ListedIn(items: seq<JsonValue>, id: string) {
    exists k :: 0 <= k < |items| && items[k] == JString(id) && forall j :: 0 <= j < k ==> items[j].JString?
  }

  /** A non-string entry occurs in `items` with only strings other than `id` before it. */
  predicate MalformedBefore(items: seq<JsonValue>, id: string) {
    exists k :: 0 <= k < |items| && !items[k].JString? && forall j :: 0 <= j < k ==> items[j].JString? && items[j].s != id
  }

  /** The scan loop of `isInContentOrder` from position `i`, all earlier
      entries being strings other than `id`. */
  function ScanContentOrder(items: seq<JsonValue>, id: string, cardID: string, i: nat): (r: Result<bool, ConvertError>)
    requires i <= |items|
    requires forall j :: 0 <= j < i ==> items[j].JString? && items[j].s != id
    ensures r == Success(true) <==> ListedIn(items, id)
    ensures r.Failure? <==> MalformedBefore(items, id)
    ensures r.Failure? ==> r.error == InvalidContentOrderString(cardID)
    decreases |items| - i
  {
    if i == |items| then Success(false)
    else match items[i]
      case JString(s) =>
        if s == id then Success(true) else ScanContentOrder(items, id, cardID, i + 1)
      case _ => Failure(InvalidContentOrderString(cardID))
  }

  /** `isInContentOrder`: whether the card lists the block. A `contentOrder`
      that is not a list, or a non-string entry met before the block's ID,
      ends the run (the Go code exits through `LogFatal`). */
  function IsInContentOrder(card: Option<Block>, block: Option<Block>): (r: Result<bool, ConvertError>)
    ensures card.None? || block.None? ==> r == Success(false)
    ensures card.Some? && block.Some? && ContentOrderKey !in card.value.fields ==> r == Success(false)
    ensures card.Some? && block.Some? && ContentOrderKey in card.value.fields && !card.value.fields[ContentOrderKey].JArray? ==>
      r == Failure(InvalidContentOrder(card.value.id))
    ensures card.Some? && block.Some? && ContentOrderKey in card.value.fields && card.value.fields[ContentOrderKey].JArray? ==>
      var items := card.value.fields[ContentOrderKey].items;
      && (r == Success(true) <==> ListedIn(items, block.value.id))
      && (r.Failure? <==> MalformedBefore(items, block.value.id))
      && (r.Failure? ==> r.error == InvalidContentOrderString(card.value.id))
  {
    if card.None? || block.None? then Success(false)
    else if ContentOrderKey !in card.value.fields then Success(false)
    else match card.value.fields[ContentOrderKey]
      case JArray(items) => ScanContentOrder(items, block.value.id, card.value.id, 0)
      case _ => Failure(InvalidContentOrder(card.value.id))
  }

  /* ---------- removeOrphans ---------- */

  /** Boards, cards and views are never removed. */
  predicate IsStructural(b: Block) {
    b.blockType == BoardType || b.blockType == CardType || b.blockType == ViewType
  }

  /** The orphan test against the bucket as it stands: a non-structural block
      whose owning card exists and does not list it. */
  predicate Orphaned(b: Block, bucket: Bucket) {
    && !IsStructural(b)
    && GetCard(b, bucket).Card?
    && IsInContentOrder(Some(GetCard(b, bucket).card), Some(b)) == Success(false)
  }

  /** The orphan test of `b` against `bucket` reaches a verdict: the card
      lookup returns and the card's `contentOrder` can be read. */
  predicate Decides(b: Block, bucket: Bucket) {
    || IsStructural(b)
    || (&& !GetCard(b, bucket).Cycle?
        && (GetCard(b, bucket).Card? ==> IsInContentOrder(Some(GetCard(b, bucket).card), Some(b)).Success?))
  }

  /** The loop of `removeOrphans` over one bucket from slot `i`; `bucket`
      already carries the tombstones written at slots before `i`. */
  function RemoveOrphansFrom(bucket: Bucket, i: nat): (r: Result<Bucket, ConvertError>)
    requires i <= |bucket|
    ensures r.Success? ==> |r.value| == |bucket| && r.value[..i] == bucket[..i]
    ensures r.Success? ==> forall j :: i <= j < |bucket| ==> r.value[j] == bucket[j] || r.value[j].None?
    ensures r.Failure? ==> r.error.InvalidContentOrder? || r.error.InvalidContentOrderString? || r.error.ParentCycle?
    decreases |bucket| - i
  {
    if i == |bucket| then Success(bucket)
    else match bucket[i]
      case None => RemoveOrphansFrom(bucket, i + 1)
      case Some(b) =>
        if IsStructural(b) then RemoveOrphansFrom(bucket, i + 1)
        else match GetCard(b, bucket)
          case Cycle => Failure(ParentCycle(b.id))
          case NoCard => RemoveOrphansFrom(bucket, i + 1)
          case Card(c) =>
            match IsInContentOrder(Some(c), Some(b))
            case Failure(e) => Failure(e)
            case Success(listed) =>
              var next := if listed then bucket else bucket[i := None];
              assert |next| == |bucket| && next[..i] == bucket[..i];
              assert next[i] == bucket[i] || next[i].None?;
              RemoveOrphansFrom(next, i + 1)
  }

  /** The bucket once slot `i` has been decided. */
  function Settle(bucket: Bucket, i: nat): Bucket
    requires i < |bucket|
  {
    if bucket[i].Some? && Orphaned(bucket[i].value, bucket) then bucket[i := None] else bucket
  }

  /** A pass that does not stop at slot `i` carries on from the settled bucket. */
  lemma RemoveOrphansStep(bucket: Bucket, i: nat)
    requires i < |bucket| && RemoveOrphansFrom(bucket, i).Success?
    ensures RemoveOrphansFrom(bucket, i) == RemoveOrphansFrom(Settle(bucket, i), i + 1)
  {
  }

  lemma SettleHead(bucket: Bucket, i: nat, rv: Bucket)
    requires i < |bucket| == |rv| && rv[..i + 1] == Settle(bucket, i)[..i + 1]
    ensures rv[..i] + bucket[i..] == bucket
    ensures rv[i] == Settle(bucket, i)[i]
  {
    assert rv[..i] == Settle(bucket, i)[..i];
    assert rv[..i] == bucket[..i];
    assert rv[i] == rv[..i + 1][i];
  }

  lemma SettleTail(bucket: Bucket, i: nat, j: nat)
    requires i < j < |bucket|
    ensures Settle(bucket, i)[j..] == bucket[j..] && Settle(bucket, i)[j] == bucket[j]
  {
  }

  /** Each slot from `i` on is cleared exactly when its block is an orphan of
      the bucket as the pass has left it on reaching that slot. */
  lemma {:induction false} RemoveOrphansFromSound(bucket: Bucket, i: nat)
    requires i <= |bucket|
    ensures var r := RemoveOrphansFrom(bucket, i);
      r.Success? ==> forall j :: i <= j < |bucket| && bucket[j].Some? ==>
        && Decides(bucket[j].value, r.value[..j] + bucket[j..])
        && (r.value[j].None? <==> Orphaned(bucket[j].value, r.value[..j] + bucket[j..]))
    decreases |bucket| - i
  {
    var r := RemoveOrphansFrom(bucket, i);
    if i < |bucket| && r.Success? {
      var rv := r.value;
      var next := Settle(bucket, i);
      RemoveOrphansStep(bucket, i);
      RemoveOrphansFromSound(next, i + 1);
      forall j | i <= j < |bucket| && bucket[j].Some?
        ensures Decides(bucket[j].value, rv[..j] + bucket[j..])
        ensures rv[j].None? <==> Orphaned(bucket[j].value, rv[..j] + bucket[j..])
      {
        if j == i {
          SettleHead(bucket, i, rv);
        } else {
          SettleTail(bucket, i, j);
        }
      }
    }
  }

  /** `removeOrphans` on one board's bucket. Slots keep their positions; a
      slot is cleared exactly when its block is an orphan of the bucket as
      updated by the earlier slots of the same pass; nil slots and boards,
      cards and views are left as they are. */
  function RemoveOrphans(bucket: Bucket): (r: Result<Bucket, ConvertError>)
    ensures r.Success? ==> |r.value| == |bucket|
    ensures r.Success? ==> forall i :: 0 <= i < |bucket| ==> r.value[i] == bucket[i] || r.value[i].None?
    ensures r.Success? ==> forall i :: 0 <= i < |bucket| && (bucket[i].None? || IsStructural(bucket[i].value)) ==>
      r.value[i] == bucket[i]
    ensures r.Success? ==> forall i :: 0 <= i < |bucket| && bucket[i].Some? ==>
      (r.value[i].None? <==> Orphaned(bucket[i].value, r.value[..i] + bucket[i..]))
    ensures r.Success? ==> forall i :: 0 <= i < |bucket| && bucket[i].Some? ==>
      Decides(bucket[i].value, r.value[..i] + bucket[i..])
    ensures r.Failure? ==> r.error.InvalidContentOrder? || r.error.InvalidContentOrderString? || r.error.ParentCycle?
  {
    RemoveOrphansFromSound(bucket, 0);
    RemoveOrphansFrom(bucket, 0)
  }

  /** The part of `removeOrphans`'s map loop that visits the keys in `order`;
      it stops at the first bucket whose pass ends the run. */
  function RemoveOrphansIn(buckets: Buckets, order: seq<string>): (r: Result<Buckets, ConvertError>)
    requires forall k :: k in order ==> k in buckets
    ensures r.Success? <==> forall k :: k in order ==> RemoveOrphans(buckets[k]).Success?
    ensures r.Success? ==> r.value.Keys == buckets.Keys
    ensures r.Success? ==> forall k :: k in buckets ==>
      r.value[k] == if k in order then RemoveOrphans(buckets[k]).value else buckets[k]
    ensures r.Failure? ==> exists k :: k in order && RemoveOrphans(buckets[k]) == Failure(r.error)
  {
    if |order| == 0 then Success(buckets)
    else match RemoveOrphans(buckets[order[0]])
      case Failure(e) => Failure(e)
      case Success(cleaned) =>
        match RemoveOrphansIn(buckets, order[1..])
        case Failure(e) => Failure(e)
        case Success(m) => Success(m[order[0] := cleaned])
  }

  /** `removeOrphans` over the whole board map. Whatever order the map is
      visited in, the run goes on exactly when every bucket's pass does, each
      bucket is then replaced by its own pass's result, and the board IDs stay
      the same; a failure is the failure of one of the buckets. */
  function RemoveOrphansAll(buckets: Buckets, order: seq<string>): (r: Result<Buckets, ConvertError>)
    requires IsEnumeration(order, buckets.Keys)
    ensures r.Success? <==> forall k :: k in buckets ==> RemoveOrphans(buckets[k]).Success?
    ensures r.Success? ==> r.value.Keys == buckets.Keys
    ensures r.Success? ==> forall k :: k in buckets ==> Success(r.value[k]) == RemoveOrphans(buckets[k])
    ensures r.Failure? ==> exists k :: k in buckets && RemoveOrphans(buckets[k]) == Failure(r.error)
  {
    RemoveOrphansIn(buckets, order)
  }

  /* ---------- getBoardAndCard ---------- */

  /** `getBoardAndCard`: a board is its own board and has no card; any other
      block's board is the first block whose ID is its RootID, and its card is
      what `getCard` finds (the block itself for a card). */
  function GetBoardAndCard(block: Block, bucket: Bucket): (r: (Option<Block>, CardLookup))
    ensures block.blockType == BoardType ==> r == (Some(block), NoCard)
    ensures block.blockType != BoardType ==>
      && (r.0.Some? ==> r.0.value.id == block.rootID && Some(r.0.value) in bucket)
      && (r.0.None? <==> forall j :: 0 <= j < |bucket| ==> !HasID(bucket[j], block.rootID))
      && r.0 == GetBlockByID(block.rootID, bucket)
      && r.1 == GetCard(block, bucket)
    ensures block.blockType == CardType ==> r.1 == Card(block)
  {
    if block.blockType == BoardType then (Some(block), NoCard)
    else if block.blockType == CardType then (GetBlockByID(block.rootID, bucket), Card(block))
    else (GetBlockByID(block.rootID, bucket), GetCard(block, bucket))
  }
}

=== FILE: util_lemmas.dfy ===
/**
 * Properties of the orphan filter that relate several passes or several
 * buckets: a pass never removes more once it has run (with unique IDs), and
 * clearing slots can only cut a card lookup short, never redirect it.
 */
module UtilLemmas {
  import opened Wrappers
  import opened Blocks
  import opened Errors
  import opened Util

  /** No two blocks of the bucket share an ID. */
  predicate UniqueIDs(bucket: Bucket) {
    forall i, j :: 0 <= i < j < |bucket| && bucket[i].Some? && bucket[j].Some? ==>
      bucket[i].value.id != bucket[j].value.id
  }

  /** `t` is `s` with some slots cleared. */
  predicate Thinned(t: Bucket, s: Bucket) {
    |t| == |s| && forall i :: 0 <= i < |t| ==> t[i] == s[i] || t[i].None?
  }

  lemma ThinnedUnique(t: Bucket, s: Bucket)
    requires Thinned(t, s) && UniqueIDs(s)
    ensures UniqueIDs(t)
  {
  }

  /** With unique IDs, a lookup that succeeds in a thinned bucket finds the
      same slot in the full one. */
  lemma ThinnedIndex(id: string, t: Bucket, s: Bucket)
    requires Thinned(t, s) && UniqueIDs(s)
    requires IndexOfID(id, t).Some?
    ensures IndexOfID(id, s) == IndexOfID(id, t)
  {
    var i := IndexOfID(id, t).value;
    assert HasID(s[i], id);
    var i' := IndexOfID(id, s).value;
    assert i' <= i;
  }

  lemma {:induction false} WalkUpThinned(t: Bucket, s: Bucket, cur: Block, visited: set<nat>)
    requires Thinned(t, s) && UniqueIDs(s)
    requires forall i :: i in visited ==> i < |s|
    ensures WalkUp(t, cur, visited) == WalkUp(s, cur, visited) || WalkUp(t, cur, visited) == NoCard
    decreases |s| - |visited|
  {
    match IndexOfID(cur.parentID, t) {
      case None =>
      case Some(i) =>
        ThinnedIndex(cur.parentID, t, s);
        var parent := t[i].value;
        if parent.blockType != CardType && i !in visited {
          BoundedSetSize(visited + {i}, |s|);
          WalkUpThinned(t, s, parent, visited + {i});
        }
    }
  }

  /** Clearing slots (IDs being unique) either leaves a card lookup as it was
      or turns it into "no card": it never finds a different card. */
  lemma GetCardThinned(b: Block, t: Bucket, s: Bucket)
    requires Thinned(t, s) && UniqueIDs(s)
    ensures GetCard(b, t) == GetCard(b, s) || GetCard(b, t) == NoCard
  {
    if b.blockType != BoardType && b.blockType != CardType {
      WalkUpThinned(t, s, b, {});
    }
  }

  /** The bucket as the pass saw it on reaching slot `i` lies between the
      input and the result: each clears some slots of the one before. */
  lemma StageThinned(bucket: Bucket, r: Bucket, i: nat)
    requires RemoveOrphans(bucket) == Success(r) && i < |r|
    ensures Thinned(r[..i] + bucket[i..], bucket) && Thinned(r, r[..i] + bucket[i..])
  {
    var stage := r[..i] + bucket[i..];
    assert forall j :: 0 <= j < i ==> stage[j] == r[j];
    assert forall j :: i <= j < |r| ==> stage[j] == bucket[j];
  }

  /** A block the pass kept at slot `i` passed the orphan test there. */
  lemma StageVerdict(bucket: Bucket, r: Bucket, i: nat)
    requires RemoveOrphans(bucket) == Success(r) && i < |r| && r[i].Some?
    ensures bucket[i] == r[i]
    ensures Decides(r[i].value, r[..i] + bucket[i..]) && !Orphaned(r[i].value, r[..i] + bucket[i..])
  {
  }

  /** A block the pass kept at slot `i` is still decided and kept when the
      orphan test is applied to the finished bucket. */
  lemma KeptAgain(bucket: Bucket, r: Bucket, i: nat)
    requires UniqueIDs(bucket)
    requires RemoveOrphans(bucket) == Success(r)
    requires i < |r| && r[i].Some? && !IsStructural(r[i].value)
    ensures Decides(r[i].value, r) && !Orphaned(r[i].value, r)
  {
    var stage := r[..i] + bucket[i..];
    StageVerdict(bucket, r, i);
    StageThinned(bucket, r, i);
    ThinnedUnique(stage, bucket);
    GetCardThinned(r[i].value, r, stage);
  }

  /** The pass moves past a slot it has nothing to do at. */
  lemma PassSkips(r: Bucket, i: nat)
    requires i < |r|
    requires r[i].None? || IsStructural(r[i].value) || (Decides(r[i].value, r) && !Orphaned(r[i].value, r))
    ensures RemoveOrphansFrom(r, i) == RemoveOrphansFrom(r, i + 1)
  {
  }

  /** A second pass has nothing to do at any slot of the first pass's result. */
  lemma SecondPassSlot(bucket: Bucket, r: Bucket, i: nat)
    requires UniqueIDs(bucket)
    requires RemoveOrphans(bucket) == Success(r)
    requires i < |r|
    ensures RemoveOrphansFrom(r, i) == RemoveOrphansFrom(r, i + 1)
  {
    if r[i].Some? && !IsStructural(r[i].value) {
      KeptAgain(bucket, r, i);
    }
    PassSkips(r, i);
  }

  /** Slots the pass keeps from `i` on are kept again by a second pass. */
  lemma {:induction false} SecondPassFrom(bucket: Bucket, r: Bucket, i: nat)
    requires UniqueIDs(bucket)
    requires RemoveOrphans(bucket) == Success(r)
    requires i <= |r|
    ensures RemoveOrphansFrom(r, i) == Success(r)
    decreases |r| - i
  {
    if i < |r| {
      SecondPassFrom(bucket, r, i + 1);
      SecondPassSlot(bucket, r, i);
    }
  }

  /** Running `removeOrphans` a second time over a bucket with unique IDs
      changes nothing: cards are never removed, and a cleared slot can only
      cut the card lookups of later blocks short, which keeps them. */
  lemma RemoveOrphansIdempotent(bucket: Bucket)
    requires UniqueIDs(bucket)
    requires RemoveOrphans(bucket).Success?
    ensures RemoveOrphans(RemoveOrphans(bucket).value) == RemoveOrphans(bucket)
  {
    SecondPassFrom(bucket, RemoveOrphans(bucket).value, 0);
  }
}

=== FILE: wrappers.dfy ===
/** Go's nil pointers become `Option`, Go's `(value, error)` pairs become `Result`. */
module Wrappers {

  /** A possibly-absent value; `None` plays the role of a nil `*model.Block`. */
  datatype Option<+T> = None | Some(value: T)

  /** Either a value or an error. */
  datatype Result<+R, +E> = Success(value: R) | Failure(error: E)
}
